=== FILE: README.md ===
# Feed controller of the velocity-tracker dashboard, in Dafny

This project models the state logic of the `Dashboard` component in
`app/page.tsx`: the browser-side controller that loads a ranked feed of
GitHub repositories page by page, can replace it with semantic-search results
whose analysis it computes itself, derives the displayed list, sector counts
and tag chips, drives the README / translation detail view, and triggers the
sync and backfill maintenance jobs.

The React hooks become one immutable record, `Types.State`. Each handler
becomes pure transition functions. A handler that awaits a request is split
into a *start* transition (the state updates made before the `await`) and a
*completion* transition (the updates made when the response arrives). Every
network result is an input value:

- `Types.Outcome` for the feed and search calls: a JSON body, an HTTP error
  with its error body, a timeout, or any other thrown error with its message;
- `Detail.ReadmeOutcome` and `Detail.TranslateOutcome` for the README and
  translation calls;
- `Admin.AdminOutcome` for the two triggers.

The confirmation dialog is a boolean input. The delayed refresh after a
trigger is an event (`Admin.RefreshFired`). `Controller.Step` applies any
event to the state, and `Controller.Run` applies a sequence of them.

Modules:

- `Types`: data model and state record.
- `Text`: the JavaScript string operations used: `includes`, `toLowerCase`,
  `trim`, `join`, and number to text.
- `Paging`: `fetchTrackerData` and "load more".
- `Semantic`: `handleSemanticSearch` and its locally computed analysis.
- `Views`: `displayedRepos`, `getSectorCount`, the tag chips, the tag toggle.
- `Detail`: the README effect, `handleTranslate`, `resetTranslation`.
- `Admin`: `handleForceUpdate` and `handleForceBackfill`.
- `Controller`: the filter handlers and their refetch effect, the event type,
  and properties of whole runs.

The code has no generation counter and no README identity check, so a late
page-1, search or README response is applied to whatever state exists when it
arrives, and no property says a stale result is discarded.

Three handlers have no rendered control that calls them. The semantic-search
form (`app/page.tsx:507-533`) is commented out, so nothing calls
`handleSemanticSearch` or sets `semanticQuery`. Nothing calls
`handleTranslate` or `resetTranslation`. The model keeps them as the events
`QueryTyped`, `SearchSubmitted`, `SearchArrived`, `TranslateClicked`,
`TranslationArrived` and `ResetClicked`, and proves what the handlers do when
called. In the program as written, `isSearchingSemantic` and `isTranslating`
therefore stay false, and the properties about them (the translation
invariant, semantic mode hiding "load more") describe the handlers, not
reachable screens.

## Model

| member | source | states |
|---|---|---|
| Paging.StartFetch | app/page.tsx:113-123 | A page-1 load sets `loading`, resets `page` to 1 and `hasMore` to true. A page-N load only sets `loadingMore`. Both clear the error and leave semantic mode with an empty query. The data and everything outside the feed are untouched. |
| Paging.CompleteFetch | app/page.tsx:143-186 | Both loading flags are false on every path. A valid page 1 replaces `data` with the response. A valid page N appends its repositories after the old ones, keeps the old analysis and takes the new metadata; with no previous data it stores the response. On success `page` becomes the target page, and `hasMore` is the server's `has_more` if sent, else whether 50 repositories came back. A page-1 failure clears the data and shows the timeout text, the thrown message, or the fallback. A page-N failure changes neither data nor error. |
| Paging.HttpErrorMessage | app/page.tsx:143-146 | The message for a non-2xx response is never empty, and it is the body's `error` field when one is present. |
| Paging.HttpErrorMessageNamesStatus | app/page.tsx:145 | Without an `error` field, different HTTP statuses give different messages. |
| Paging.FailureOf | app/page.tsx:147-152 | A body that is null or whose `repos` is not an array fails with "Invalid response format from server". A failure is a timeout exactly when the request timed out. |
| Paging.MergePage | app/page.tsx:157-164 | The merged list has the old repositories as its prefix and the new page as its suffix. Its multiset is the sum of the two, so nothing is de-duplicated. Sector, timestamp and analysis stay; metadata is the new page's. With no previous data the response is taken as it is. |
| Paging.MergeAllConcatenates | app/page.tsx:157-164 | Loading pages 2, 3, ... in turn shows the first page's repositories followed by all later pages' in order. The analysis stays the first page's and the metadata is the last page's. |
| Paging.FailedLoadMoreKeepsData | app/page.tsx:117-121 | A whole failed "load more" keeps the data and the page number, leaves the error cleared, and stops both spinners. |
| Paging.LoadMore | app/page.tsx:1035-1040 | "Explore More" only acts on the feed screen: data is present (the spinner and "Connection Error" screens at lines 429-462 return before the button) and no repository is selected (line 588 shows the detail view instead). There it acts only when `hasMore` holds, semantic mode is off and no page-N load is running. It starts the load of `page + 1` without changing `page` or the data. Otherwise nothing changes. |
| Paging.HasMoreAfter | app/page.tsx:167 | The server's `has_more` is used when it is sent. Without it, more pages are expected exactly when the page held 50 repositories. |
| Paging.LastPageEndsFeed | app/page.tsx:167 | After a valid page with `has_more: false`, or without `has_more` and with other than 50 repositories, `hasMore` is false and "load more" does nothing. |
| Paging.FullPageKeepsFeedOpen | app/page.tsx:167 | A first page of 50 without `has_more`, on the feed screen outside semantic mode, leaves "Explore More" available. With `has_more: false`, the same page ends the feed. |
| Paging.Describe | app/page.tsx:171-177 | A failure message is the timeout text on a timeout, the thrown error's message when it is non-empty, and the fallback otherwise. It is never empty when both fixed texts are non-empty. |
| Semantic.StartSearch | app/page.tsx:318-322 | A query of only white space does nothing. Otherwise the search sets `loading` and semantic mode and clears the error. |
| Semantic.SearchCall | app/page.tsx:329-338 | The search succeeds exactly when the body's `repos` is an array with no null entry. A failure is a timeout exactly when the request timed out. |
| Semantic.SearchMessage | app/page.tsx:376-386 | The failure message is the timeout text on a timeout. Otherwise it is the database-specific text when the error mentions Weaviate, else the error's own message, else the fallback. It is never empty. |
| Semantic.CompleteSearch | app/page.tsx:334-392 | On success the results are stored verbatim, with sector "semantic-search", the computed analysis, `count = n` and no `has_more`. On failure the data is cleared and the error set. `loading` ends false; semantic mode, query, page and `hasMore` are unchanged. |
| Semantic.Mean | app/page.tsx:342-347 | The mean is 0 for no results; otherwise mean times n equals the left-fold sum of the values. |
| Semantic.MeanBounds | app/page.tsx:342-347 | The mean of a non-empty result lies between any lower and upper bound of its values. |
| Semantic.CountTrendsIsMultiset | app/page.tsx:350-354 | A trend key is present exactly when some repository has it. Its count is how many repositories have it, with a missing trend counting as "unknown". The counted multiset has n elements. |
| Semantic.Aggregate | app/page.tsx:341-368 | `total_repos` is n and the two averages are the guarded means. The trend counts are the multiplicities of the trend keys. `viral_count` and `accelerating_count` are the multiplicities of "viral" and "accelerating", which are 0 when absent. |
| Semantic.MeanExample | app/page.tsx:342-344 | Values 10, 20 and 30 average to 20, and an empty result averages to 0. |
| Semantic.TrendExample | app/page.tsx:350-367 | Trends viral, viral, accelerating and a missing one give viral 2, accelerating 1 and unknown 1. |
| Views.Displayed | app/page.tsx:468-473 | The displayed list is no longer than the data. Every element is a non-null repository whose relevancy is not 0, and it comes from the data. |
| Views.DisplayedAppend | app/page.tsx:468-473 | Filtering distributes over concatenation, so kept entries keep their order. |
| Views.DisplayedCounts | app/page.tsx:468-473 | Each shown entry is kept as many times as it occurs, and hidden entries never appear. |
| Views.DisplayedAfterMerge | app/page.tsx:157-164 | After a page-N merge, the displayed list is the old displayed list followed by the new page's displayed list. |
| Views.SearchText | app/page.tsx:483 | The searched text is as long as the name, the description and the space-joined topics plus two separators, and each of them can be found in it lower-cased, every topic included. |
| Views.SearchTextLayout | app/page.tsx:483 | The searched text is the lower-cased name, a space, the lower-cased description, a space and the lower-cased space-joined topics, in that order. |
| Views.TopicKeywordMatches | app/page.tsx:483-484 | A sector keyword equal to one of a repository's topics, ignoring ASCII case, makes the repository match. |
| Views.MatchesAnyIff | app/page.tsx:483-484 | A repository matches a sector exactly when its lower-cased name, description and topics contain one of the lower-cased keywords. |
| Views.EmptyKeywordMatches | app/page.tsx:484 | An empty keyword matches every repository. |
| Views.CountMatching | app/page.tsx:481-485 | The count is at most the number of entries. It equals that number exactly when every entry is a matching repository. |
| Views.CountMatchingIndices | app/page.tsx:481-485 | The count equals the number of positions in the list that hold a non-null repository matching one of the keywords. |
| Views.CountMatchingAppend | app/page.tsx:481-485 | The count of a concatenation is the sum of the counts. |
| Views.SectorCount | app/page.tsx:475-486 | With no data the count is 0. "all" counts every entry, nulls included. Any other sector counts exactly the positions holding a non-null repository that matches one of the keywords: at most the total, 0 for an empty keyword list, and the total exactly when every entry matches. |
| Views.TagSourceIff | app/page.tsx:840-846 | A tag is collected exactly when some non-null repository has it among its topics or market tags. |
| Views.Distinct | app/page.tsx:839-847 | The de-duplicated tags have no repeats and are exactly the collected tags. |
| Views.DistinctPrefix | app/page.tsx:839 | The distinct tags of any prefix of the input are a prefix of the distinct tags of the whole, so tags keep first-occurrence order. |
| Views.TagChips | app/page.tsx:839-847 | There are at most 15 chips and none repeats. Each is a tag of some repository. The chips are the first min(15, d) distinct tags, where d is the number of distinct tags. When d is at most 15, every tag gets a chip. |
| Views.ToggleTag | app/page.tsx:850 | Clicking the selected tag clears it, and clicking any other tag selects that tag. |
| Views.ToggleTwice | app/page.tsx:850 | Two clicks on one chip restore the selection exactly when no other tag was selected before. |
| Controller.SelectSector | app/page.tsx:797-800 | Choosing a sector sets it and clears the tag. If either filter changed, the page-1 load starts with the data kept on screen and any running page-N load left alone; otherwise nothing changes. |
| Controller.ClickTag | app/page.tsx:850 | A chip click always changes the tag, so it always restarts the feed at page 1. |
| Controller.ClearTag | app/page.tsx:831 | CLEAR removes the tag, and reloads only if a tag was selected. |
| Controller.ChooseHorizon | app/page.tsx:884 | A new time horizon reloads page 1, and choosing the current one changes nothing. |
| Controller.ChooseSort | app/page.tsx:914 | A new sort key reloads page 1, and choosing the current one changes nothing. |
| Controller.LogoClicked | app/page.tsx:495-499 | The logo leaves the detail view and starts a page-1 load. |
| Controller.Mounted | app/page.tsx:424-427 | After mounting, page 1 of the "all" sector sorted by trend is loading, with no data and no error. |
| Controller.FeedStep | app/page.tsx:112-186 | A page request, page arrival, "load more", query edit, search submit or search arrival leaves the README, the translation flag, both busy flags and the filters as they were. Only an arriving response changes the data. |
| Controller.ControlStep | app/page.tsx:424-427 | The logo and the filter controls keep the data on screen and never touch the README or the busy flags. Whenever the filters end up different, page 1 is loading again with `hasMore` set, the error cleared, semantic mode off and `loadingMore` as it was. The logo keeps the filters. |
| Controller.DetailEventStep | app/page.tsx:189-240 | Detail-view events change nothing outside the detail view. If a translation in flight implied README text before, it still does after. |
| Controller.AdminStep | app/page.tsx:242-314 | Trigger clicks, answers and refreshes leave the README, the filters, the data and the other job's busy flag as they were. |
| Controller.SubmitEntersSemanticMode | app/page.tsx:318-322 | Submitting a non-blank query enters semantic mode, which hides "load more". |
| Controller.ArrivalStaysInSemanticMode | app/page.tsx:334-392 | A search response, success or failure, leaves semantic mode on. |
| Controller.RunPreservesInv | app/page.tsx:212-240 | In any run, whenever a translation is in flight, the `readme` state holds non-empty text. |
| Controller.StepPreservesInv | app/page.tsx:212-240 | No event breaks that invariant. |
| Controller.BusyOnlyByOwnEvents | app/page.tsx:99-100 | The sync and backfill busy flags change only through their own job's events. |
| Controller.RunBusyOnlyByOwnEvents | app/page.tsx:242-314 | A run with no events of one job leaves that job's busy flag as it was. |
| Controller.Step | app/page.tsx:424-427 | Only an arriving page or search response changes `data`. Only the filter controls change the filters, and any filter change restarts at page 1 with `hasMore` set, the error cleared, semantic mode off and `loadingMore` as it was. |
| Controller.Run | app/page.tsx:112-186 | A run with no page or search arrival leaves the data as it was. A run with no filter event leaves the filters as they were. |
| Controller.InvFromMount | app/page.tsx:189-240 | Every run from the mounted state keeps the translation invariant. This is RunPreservesInv applied to the mounted state. |
| Controller.NoLoadMoreOffTheFeed | app/page.tsx:429-464 | While the first page loads with nothing on screen (the spinner), on the "Connection Error" screen, and in the detail view, "load more" does nothing, including right after mounting. |
| Controller.ReloadKeepsLoadMore | app/page.tsx:1035-1040 | On the feed screen with no page-N load running, a filter change that reloads page 1 keeps the old data on screen. "Explore More" stays usable during the reload. |
| Controller.LoadMoreWithoutMoreIsNoOp | app/page.tsx:1036 | "Load more" without more pages does nothing. |
| Controller.NoLoadMoreInSemanticMode | app/page.tsx:1036 | After a search is submitted, "load more" is unavailable however the search ends, until a page fetch leaves semantic mode. |
| Detail.SelectRepo | app/page.tsx:189-196 | Selecting a repository resets README, original, translation flag and view switch, and starts README loading. |
| Detail.Deselect | app/page.tsx:593-596 | Going back clears the selection and view switch and leaves the README state as it was. |
| Detail.ReadmeContent | app/page.tsx:199 | The stored README text is never empty. It is the markdown whenever that is non-empty, and otherwise the fixed text "Could not load README.". |
| Detail.ReadmeLoaded | app/page.tsx:198-208 | On success, `readme` and `originalReadme` hold the same content. On failure, `readme` is the fixed failure text and the original is untouched. Loading ends either way, and the selection is not checked. |
| Detail.FailedReadmeHasNoOriginal | app/page.tsx:189-208 | A README failure after a selection leaves the failure text, no original, and loading cleared. |
| Detail.StartTranslate | app/page.tsx:212-215 | Translation is a no-op when the README is null or empty or a translation is running. Otherwise only `isTranslating` is set. |
| Detail.TranslateDone | app/page.tsx:223-234 | A non-empty translation replaces `readme`, and anything else leaves it. `originalReadme` is never touched and `isTranslating` always ends false. |
| Detail.ResetTranslation | app/page.tsx:237-240 | Reset restores `readme` from the original and clears the flag. |
| Detail.ResetIdempotent | app/page.tsx:237-240 | Resetting twice is the same as resetting once. |
| Detail.ToggleReadmeView | app/page.tsx:716 | The README/summary switch flips one flag and fetches nothing. |
| Detail.DetailKeepsOriginal | app/page.tsx:212-240 | No sequence of translations, resets and view switches changes the original README or the selection. |
| Detail.TranslateResetRoundTrip | app/page.tsx:198-240 | After a README loads, a reset after any translations restores exactly the loaded text. |
| Admin.SetBusy | app/page.tsx:99-100 | Setting one job's busy flag leaves the other's, the feed and the filters unchanged. |
| Admin.Trigger | app/page.tsx:242-249 | A busy job or a declined dialog makes the click a no-op. Otherwise the job becomes busy and the error is cleared. The other job's flag never changes. The backfill handler at lines 279-286 is the same. |
| Admin.FailureText | app/page.tsx:270-272 | A failed trigger always has a non-empty message. A timeout shows the job's timeout text, and any other failure its generic text. The backfill texts are at lines 307-309. |
| Admin.FailureTextsDistinct | app/page.tsx:307-309 | The two jobs and the timeout versus other failure give four different messages. |
| Admin.Responded | app/page.tsx:251-276 | A successful response changes nothing, so the job stays busy until the refresh. Any failure clears busy at once and shows the job's timeout or generic message. The other job is unaffected. |
| Admin.RefreshFired | app/page.tsx:261-264 | The scheduled refresh starts a page-1 load and then clears the job's busy flag. The data stays on screen. |
| Admin.BusyUntilRefresh | app/page.tsx:243-264 | A second click while the job is busy is ignored whatever the answer. A successful trigger stays busy until its refresh fires. |
| Text.ToLower | app/page.tsx:483-484 | Lower-casing keeps the length and maps each character on its own: ASCII capitals to small letters, everything else unchanged. |
| Text.LowerContains | app/page.tsx:483-484 | A text found in a string is still found after both are lower-cased. |
| Text.Join | app/page.tsx:483 | Joining no parts gives the empty text, and every part can be found in the joined text. |
| Text.JoinSingle | app/page.tsx:483 | A single part joins to itself, with no separator. |
| Text.JoinAppend | app/page.tsx:483 | Joining two non-empty lists gives the join of the first, one separator, then the join of the second, so the parts keep their order one separator apart. |
| Text.LowerAppend | app/page.tsx:483 | Lower-casing a concatenation lower-cases each side in place. |
| Text.ContainsIff | app/page.tsx:484 | The scan for a substring succeeds exactly when the substring occurs at some index. |
| Text.TrimEmptyIff | app/page.tsx:318 | A trimmed query is empty exactly when every character is white space. |
| Text.Trim | app/page.tsx:318 | The trimmed text is a slice of the input. Everything cut off before and after it is white space, and it neither starts nor ends with white space. |
| Text.NatToString | app/page.tsx:145 | The status text is non-empty, all digits, and without a leading zero. |
| Text.ParseNatToString | app/page.tsx:145 | Reading the status text back gives the status. |

## Left out

- Network plumbing is not modelled: the URLs, query parameters (`limit=50`, sector, tag, horizon, sort), cache headers, the `_t` cache breaker and the timeout durations. Each response is an input.
- The refresh timer calls the `fetchTrackerData` captured when the trigger was clicked, so it uses the filters of that moment. Only the request URL depends on them, and that is not modelled.
- Delays are not modelled: `setTimeout` delays are the `RefreshFired` event, and `confirm` is a boolean input. `alert` and `console` output is dropped.
- React scheduling is not modelled: each event applies its updates at once, as one transition.
- The subscribe modal and `handleSubscribe`, the theme toggle, all rendering and styling, `app/layout.tsx`, `components/magicui/shiny-button.tsx` and `next.config.ts` are not part of this model.
- Repository fields used only for display (stars, forks, url, language, dates) are not carried.
- JSON shape errors other than a null body or a non-array `repos` are not modelled. Examples: a non-object error body, a non-boolean `has_more`, a non-string `markdown`.
- Text.ToLower: lower-cases ASCII letters only; JavaScript's `toLowerCase` also maps other Unicode letters.
- Semantic.Mean: uses exact `real` arithmetic, not IEEE doubles; `toFixed` display rounding is dropped.
- Semantic.NullRead: the TypeError text for reading a property of `null` uses V8's wording; other engines word it differently.
- Semantic.CountTrends: trend keys are counted in a Dafny map, where every key is ordinary. The code counts into a plain object literal (`app/page.tsx:350-353`), where a trend named after an `Object.prototype` member would misbehave: "constructor" or "toString" would read the inherited function, and "__proto__" would be dropped. The `trend` type at `app/page.tsx:43` allows only viral, accelerating, steady, decelerating, cooling and new, and the code's fallback is "unknown"; none of these names such a member. The model accepts any trend string, so Semantic.CountTrendsIsMultiset and Semantic.Aggregate state the counts for ordinary keys only.
- Semantic.CountTrendsIsMultiset: "the counts add up to n" is stated as a multiset of n trend keys whose multiplicities are the counts. It is not stated as a sum over the map's values.
- Paging.StartFetch: the target page is at least 1 (`PageNumber`), because the code only ever passes 1 or `page + 1`.
- Detail.SelectRepo: the README effect fires on a change of `selectedRepo`. The model always fires it, because cards are only clickable while nothing is selected.

=== FILE: admin.dfy ===
/** `handleForceUpdate` and `handleForceBackfill`: the two maintenance
    triggers, each with its own busy flag, confirmation dialog, failure
    messages and delayed refresh. */
module Admin {
  import opened Types
  import Paging

  datatype Job = Sync | Backfill

  const SyncTimeoutText: string := "Update request timed out. Check the server logs."
  const SyncFailedText: string := "Failed to start update. Please try again."
  const BackfillTimeoutText: string := "Backfill request timed out. It may still be running on the server."
  const BackfillFailedText: string := "Failed to start backfill. Check server logs."

  /** The trigger's response: a parsed body with its `success` flag, the
      request timing out, or any other rejection (transport error, body not
      JSON). */
  datatype AdminOutcome = AdminJson(success: bool) | AdminTimedOut | AdminRejected

  function Other(job: Job): Job {
    if job == Sync then Backfill else Sync
  }

  /** `isUpdating` for the sync, `isBackfilling` for the backfill. */
  function Busy(s: State, job: Job): bool {
    if job == Sync then s.isUpdating else s.isBackfilling
  }

  function SetBusy(s: State, job: Job, b: bool): (r: State)
    ensures Busy(r, job) == b && Busy(r, Other(job)) == Busy(s, Other(job))
    ensures SameFeed(s, r) && FiltersOf(r) == FiltersOf(s)
    ensures r.readme == s.readme && r.originalReadme == s.originalReadme && r.isTranslating == s.isTranslating
  {
    if job == Sync then s.(isUpdating := b) else s.(isBackfilling := b)
  }

  /** The confirmation dialog is only shown when the job is not busy. */
  predicate AsksConfirmation(s: State, job: Job) {
    !Busy(s, job)
  }

  /** Clicking the trigger with the user's answer `confirmed`: a busy job or
      a declined dialog does nothing; otherwise the job becomes busy and the
      error banner is cleared. The other job's flag is never touched. */
  function Trigger(s: State, job: Job, confirmed: bool): (r: State)
    ensures Busy(s, job) || !confirmed ==> r == s
    ensures AsksConfirmation(s, job) && confirmed ==> Busy(r, job) && r.error.None?
    ensures AsksConfirmation(s, job) && confirmed ==> r == SetBusy(s, job, true).(error := None)
    ensures Busy(r, Other(job)) == Busy(s, Other(job))
    ensures r.data == s.data && r.loading == s.loading && r.page == s.page
    ensures r.readme == s.readme && r.isTranslating == s.isTranslating && FiltersOf(r) == FiltersOf(s)
  {
    if Busy(s, job) || !confirmed then s else SetBusy(s, job, true).(error := None)
  }

  /** The message a failed trigger shows: the job's timeout text when the
      request timed out, its generic text otherwise. */
  function FailureText(job: Job, timedOut: bool): (m: string)
    ensures m != ""
    ensures timedOut ==> m == (if job == Sync then SyncTimeoutText else BackfillTimeoutText)
    ensures !timedOut ==> m == (if job == Sync then SyncFailedText else BackfillFailedText)
  {
    match job
    case Sync => if timedOut then SyncTimeoutText else SyncFailedText
    case Backfill => if timedOut then BackfillTimeoutText else BackfillFailedText
  }

  /** The two jobs and the two kinds of failure give four different
      messages. */
  lemma FailureTextsDistinct(j1: Job, t1: bool, j2: Job, t2: bool)
    requires j1 != j2 || t1 != t2
    ensures FailureText(j1, t1) != FailureText(j2, t2)
  {
    assert |SyncTimeoutText| == 48 && |SyncFailedText| == 41;
    assert |BackfillTimeoutText| == 66 && |BackfillFailedText| == 44;
  }

  /** The trigger's response arriving. Success keeps the job busy (the
      refresh is scheduled); any failure clears busy at once and shows the
      timeout-specific or generic message. */
  function Responded(s: State, job: Job, o: AdminOutcome): (r: State)
    ensures o == AdminJson(true) ==> r == s
    ensures o != AdminJson(true) ==> !Busy(r, job) && r.error == Some(FailureText(job, o.AdminTimedOut?))
    ensures Busy(r, Other(job)) == Busy(s, Other(job))
    ensures r.data == s.data && r.loading == s.loading && r.page == s.page && r.hasMore == s.hasMore
    ensures r.readme == s.readme && r.isTranslating == s.isTranslating && FiltersOf(r) == FiltersOf(s)
  {
    if o == AdminJson(true) then s
    else SetBusy(s, job, false).(error := Some(FailureText(job, o.AdminTimedOut?)))
  }

  /** The scheduled refresh firing (after 2 minutes for the sync, 5 for the
      backfill): a page-1 fetch starts, then the job stops being busy. */
  function RefreshFired(s: State, job: Job): (r: State)
    ensures !Busy(r, job) && Busy(r, Other(job)) == Busy(s, Other(job))
    ensures r.loading && r.page == 1 && r.hasMore && r.error.None? && !r.isSearchingSemantic
    ensures r.data == s.data
    ensures r.readme == s.readme && r.isTranslating == s.isTranslating && FiltersOf(r) == FiltersOf(s)
  {
    SetBusy(Paging.StartFetch(s, 1), job, false)
  }

  /** A second click while the job is busy does nothing, whatever the user
      would answer; a successful response keeps it busy until the refresh. */
  lemma BusyUntilRefresh(s: State, job: Job, c: bool)
    requires AsksConfirmation(s, job)
    ensures var started := Trigger(s, job, true);
            && Trigger(started, job, c) == started
            && Busy(Responded(started, job, AdminJson(true)), job)
            && !Busy(RefreshFired(Responded(started, job, AdminJson(true)), job), job)
  {
  }
}

=== FILE: controller.dfy ===
/** The `Dashboard` component as one state machine: every click, effect and
    arriving response is an event, and `Step` applies it. */
module Controller {
  import opened Types
  import Paging
  import Semantic
  import Views
  import Detail
  import Admin
  import Text

  /** The README text, the translation flag and both busy flags are left
      as they were. */
  predicate KeepsDetail(s: State, r: State) {
    && r.readme == s.readme && r.isTranslating == s.isTranslating
    && r.isUpdating == s.isUpdating && r.isBackfilling == s.isBackfilling
  }

  /** The page-1 fetch has started again over the data on screen, leaving
      any running page-N load alone: what the effect keyed on the four
      filters does whenever one of them changed. */
  predicate Restarted(s: State, r: State) {
    && r.loading && r.page == 1 && r.hasMore && r.error.None? && !r.isSearchingSemantic
    && r.data == s.data && r.loadingMore == s.loadingMore
  }

  /** Choosing a sector always clears the tag; the feed reloads from page 1
      unless neither filter changed. */
  function SelectSector(s: State, id: string): (r: State)
    ensures KeepsDetail(s, r)
    ensures r.sector == id && r.tag.None?
    ensures s.sector != id || s.tag.Some? ==> Restarted(s, r)
    ensures s.sector == id && s.tag.None? ==> r == s
  {
    if s.sector == id && s.tag.None? then s
    else
      var s1 := s.(sector := id, tag := None);
      assert s1.data == s.data && s1.loadingMore == s.loadingMore;
      Paging.StartFetch(s1, 1)
  }

  /** Clicking a tag chip toggles the selection, which always changes it, so
      the feed always reloads from page 1. */
  function ClickTag(s: State, t: string): (r: State)
    ensures KeepsDetail(s, r)
    ensures r.tag == Views.ToggleTag(s.tag, t) && r.tag != s.tag
    ensures r.sector == s.sector
    ensures Restarted(s, r)
  {
    Paging.StartFetch(s.(tag := Views.ToggleTag(s.tag, t)), 1)
  }

  /** The CLEAR link of the tag panel. */
  function ClearTag(s: State): (r: State)
    ensures KeepsDetail(s, r)
    ensures r.tag.None?
    ensures s.tag.Some? ==> Restarted(s, r)
    ensures s.tag.None? ==> r == s
  {
    if s.tag.None? then s else Paging.StartFetch(s.(tag := None), 1)
  }

  function ChooseHorizon(s: State, h: Option<int>): (r: State)
    ensures KeepsDetail(s, r)
    ensures r.timeHorizon == h
    ensures s.timeHorizon != h ==> Restarted(s, r)
    ensures s.timeHorizon == h ==> r == s
  {
    if s.timeHorizon == h then s else Paging.StartFetch(s.(timeHorizon := h), 1)
  }

  function ChooseSort(s: State, k: SortKey): (r: State)
    ensures KeepsDetail(s, r)
    ensures r.sortBy == k
    ensures s.sortBy != k ==> Restarted(s, r)
    ensures s.sortBy == k ==> r == s
  {
    if s.sortBy == k then s else Paging.StartFetch(s.(sortBy := k), 1)
  }

  /** The logo: leave the detail view and reload page 1 under the current
      filters. */
  function LogoClicked(s: State): (r: State)
    ensures KeepsDetail(s, r) && FiltersOf(r) == FiltersOf(s)
    ensures r.selectedRepo.None? && !r.showReadme
    ensures Restarted(s, r)
  {
    Paging.StartFetch(s.(selectedRepo := None, showReadme := false), 1)
  }

  datatype Event =
    | PageRequested            // the mount effect or "Retry Connection"
    | PageArrived(targetPage: PageNumber, o: Outcome)
    | LoadMoreClicked
    | LogoPressed
    | SectorChosen(id: string)
    | TagChipClicked(t: string)
    | TagCleared
    | HorizonChosen(h: Option<int>)
    | SortChosen(k: SortKey)
    | QueryTyped(q: string)                  // the search form is commented out:
    | SearchSubmitted                        // no rendered control sends these three
    | SearchArrived(so: Outcome, now: string)
    | RepoClicked(repo: Repo)
    | BackClicked
    | ReadmeArrived(ro: Detail.ReadmeOutcome)
    | TranslateClicked                                 // no rendered control calls
    | TranslationArrived(to: Detail.TranslateOutcome)  // `handleTranslate` or
    | ResetClicked                                     // `resetTranslation`
    | ReadmeViewToggled
    | TriggerClicked(job: Admin.Job, confirmed: bool)
    | TriggerAnswered(job: Admin.Job, ao: Admin.AdminOutcome)
    | RefreshTimerFired(job: Admin.Job)

  predicate IsFeedEvent(e: Event) {
    e.PageRequested? || e.PageArrived? || e.LoadMoreClicked? || e.QueryTyped?
    || e.SearchSubmitted? || e.SearchArrived?
  }

  predicate IsFilterEvent(e: Event) {
    e.SectorChosen? || e.TagChipClicked? || e.TagCleared? || e.HorizonChosen? || e.SortChosen?
  }

  predicate IsDetailEvent(e: Event) {
    e.RepoClicked? || e.BackClicked? || e.ReadmeArrived? || e.TranslateClicked?
    || e.TranslationArrived? || e.ResetClicked? || e.ReadmeViewToggled?
  }

  predicate IsAdminEvent(e: Event) {
    e.TriggerClicked? || e.TriggerAnswered? || e.RefreshTimerFired?
  }

  predicate IsJobEvent(e: Event, job: Admin.Job) {
    IsAdminEvent(e) && e.job == job
  }

  /** While a translation is in flight, the `readme` state holds non-empty
      text. No rendered control starts a translation, so in the program as
      written `isTranslating` stays false; the invariant is about the
      translate and reset handlers themselves. */
  predicate Inv(s: State) {
    s.isTranslating ==> s.readme.Some? && s.readme.value != ""
  }

  /** The feed and search events: they leave the detail view, both busy
      flags and the filters alone, and only an arriving response touches the
      data. */
  function FeedStep(s: State, e: Event): (r: State)
    requires IsFeedEvent(e)
    ensures KeepsDetail(s, r) && FiltersOf(r) == FiltersOf(s)
    ensures !e.PageArrived? && !e.SearchArrived? ==> r.data == s.data
  {
    match e
    case PageRequested => Paging.StartFetch(s, 1)
    case PageArrived(p, o) => Paging.CompleteFetch(s, p, o)
    case LoadMoreClicked => Paging.LoadMore(s)
    case QueryTyped(q) => s.(semanticQuery := q)
    case SearchSubmitted => Semantic.StartSearch(s)
    case SearchArrived(o, now) => Semantic.CompleteSearch(s, o, now)
  }

  /** The logo and the filter controls: they keep the data on screen, and a
      changed filter always restarts the feed at page 1. */
  function ControlStep(s: State, e: Event): (r: State)
    requires e.LogoPressed? || IsFilterEvent(e)
    ensures KeepsDetail(s, r) && r.data == s.data
    ensures FiltersOf(r) != FiltersOf(s) ==> Restarted(s, r)
    ensures e.LogoPressed? ==> FiltersOf(r) == FiltersOf(s)
  {
    match e
    case LogoPressed => LogoClicked(s)
    case SectorChosen(id) => SelectSector(s, id)
    case TagChipClicked(t) => ClickTag(s, t)
    case TagCleared => ClearTag(s)
    case HorizonChosen(h) => ChooseHorizon(s, h)
    case SortChosen(k) => ChooseSort(s, k)
  }

  /** The detail view: it touches nothing outside itself, and a translation
      only ever runs over non-empty text. */
  function DetailEventStep(s: State, e: Event): (r: State)
    requires IsDetailEvent(e)
    ensures Detail.SameOutsideDetail(s, r)
    ensures Inv(s) ==> Inv(r)
  {
    match e
    case RepoClicked(repo) => Detail.SelectRepo(s, repo)
    case BackClicked => Detail.Deselect(s)
    case ReadmeArrived(o) => Detail.ReadmeLoaded(s, o)
    case TranslateClicked => Detail.StartTranslate(s)
    case TranslationArrived(o) => Detail.TranslateDone(s, o)
    case ResetClicked => Detail.ResetTranslation(s)
    case ReadmeViewToggled => Detail.ToggleReadmeView(s)
  }

  /** The maintenance triggers: the README, the filters, the data and the
      other job's busy flag are left alone. */
  function AdminStep(s: State, e: Event): (r: State)
    requires IsAdminEvent(e)
    ensures r.readme == s.readme && r.isTranslating == s.isTranslating
    ensures FiltersOf(r) == FiltersOf(s) && r.data == s.data
    ensures Admin.Busy(r, Admin.Other(e.job)) == Admin.Busy(s, Admin.Other(e.job))
  {
    match e
    case TriggerClicked(job, c) => Admin.Trigger(s, job, c)
    case TriggerAnswered(job, o) => Admin.Responded(s, job, o)
    case RefreshTimerFired(job) => Admin.RefreshFired(s, job)
  }

  /** One event applied to the state. Only an arriving page or search
      response writes the data; only the filter controls change the
      filters, and whenever they do the page-1 load has started again. */
  function Step(s: State, e: Event): (r: State)
    ensures !e.PageArrived? && !e.SearchArrived? ==> r.data == s.data
    ensures !IsFilterEvent(e) ==> FiltersOf(r) == FiltersOf(s)
    ensures FiltersOf(r) != FiltersOf(s) ==> Restarted(s, r)
  {
    if IsFeedEvent(e) then FeedStep(s, e)
    else if IsDetailEvent(e) then DetailEventStep(s, e)
    else if IsAdminEvent(e) then AdminStep(s, e)
    else ControlStep(s, e)
  }

  /** A sequence of events applied in order. A run with no page or search
      arrival leaves the data on screen as it was, and a run with no filter
      event leaves the filters as they were. */
  function Run(s: State, es: seq<Event>): (r: State)
    ensures (forall i :: 0 <= i < |es| ==> !es[i].PageArrived? && !es[i].SearchArrived?) ==> r.data == s.data
    ensures (forall i :: 0 <= i < |es| ==> !IsFilterEvent(es[i])) ==> FiltersOf(r) == FiltersOf(s)
    decreases |es|
  {
    if es == [] then s
    else
      assert forall i :: 1 <= i < |es| ==> es[1..][i - 1] == es[i];
      Run(Step(s, es[0]), es[1..])
  }

  /** The state right after mounting: the initial hooks and the first page-1
      fetch under way. */
  function Mounted(): (r: State)
    ensures r.loading && r.page == 1 && r.hasMore && r.data.None? && r.error.None?
    ensures r.sector == "all" && r.tag.None? && r.timeHorizon.None? && r.sortBy == ByTrend
  {
    Step(Initial, PageRequested)
  }

  lemma StepPreservesInv(s: State, e: Event)
    requires Inv(s)
    ensures Inv(Step(s, e))
  {
  }

  lemma {:induction false} RunPreservesInv(s: State, es: seq<Event>)
    requires Inv(s)
    ensures Inv(Run(s, es))
    decreases |es|
  {
    if es != [] {
      StepPreservesInv(s, es[0]);
      RunPreservesInv(Step(s, es[0]), es[1..]);
    }
  }

  /** Every run from the mounted state keeps the invariant. */
  lemma InvFromMount(es: seq<Event>)
    ensures Inv(Run(Mounted(), es))
  {
    RunPreservesInv(Mounted(), es);
  }

  /** The two triggers are independent: only a job's own events change its
      busy flag. */
  lemma BusyOnlyByOwnEvents(s: State, e: Event, job: Admin.Job)
    requires !IsJobEvent(e, job)
    ensures Admin.Busy(Step(s, e), job) == Admin.Busy(s, job)
  {
  }

  lemma {:induction false} RunBusyOnlyByOwnEvents(s: State, es: seq<Event>, job: Admin.Job)
    requires forall i :: 0 <= i < |es| ==> !IsJobEvent(es[i], job)
    ensures Admin.Busy(Run(s, es), job) == Admin.Busy(s, job)
    decreases |es|
  {
    if es != [] {
      BusyOnlyByOwnEvents(s, es[0], job);
      RunBusyOnlyByOwnEvents(Step(s, es[0]), es[1..], job);
    }
  }

  /** "Explore More" exists only on the feed screen: while the first page
      loads with nothing on screen (the spinner), on the "Connection Error"
      screen and in the detail view, "load more" does nothing. */
  lemma NoLoadMoreOffTheFeed(s: State)
    requires s.data.None? || s.selectedRepo.Some?
    ensures Step(s, LoadMoreClicked) == s
    ensures Step(Mounted(), LoadMoreClicked) == Mounted()
  {
    assert Step(s, LoadMoreClicked) == Paging.LoadMore(s);
    assert Step(Mounted(), LoadMoreClicked) == Paging.LoadMore(Mounted());
  }

  /** A filter change reloads page 1 over the data on screen, so on the
      feed screen, with no page-N load running, "Explore More" stays
      usable during the reload. */
  lemma ReloadKeepsLoadMore(s: State, e: Event)
    requires IsFilterEvent(e)
    requires s.data.Some? && s.selectedRepo.None? && !s.loadingMore
    ensures FiltersOf(Step(s, e)) != FiltersOf(s) ==> Step(s, e).loading && Paging.CanLoadMore(Step(s, e))
  {
  }

  /** "Load more" on a feed without more pages does nothing. */
  lemma LoadMoreWithoutMoreIsNoOp(s: State)
    requires !s.hasMore
    ensures Step(s, LoadMoreClicked) == s
  {
  }

  /** Submitting a non-blank query enters semantic mode, which hides "load
      more". */
  lemma SubmitEntersSemanticMode(s: State)
    requires !Text.AllSpace(s.semanticQuery)
    ensures Step(s, SearchSubmitted).isSearchingSemantic
    ensures !Paging.CanLoadMore(Step(s, SearchSubmitted))
  {
    var r := Semantic.StartSearch(s);
    assert r.isSearchingSemantic;
    assert FeedStep(s, SearchSubmitted) == r;
    assert Step(s, SearchSubmitted) == FeedStep(s, SearchSubmitted);
  }

  /** A search response, success or failure, stays in semantic mode. */
  lemma ArrivalStaysInSemanticMode(s: State, o: Outcome, now: string)
    requires s.isSearchingSemantic
    ensures Step(s, SearchArrived(o, now)).isSearchingSemantic
    ensures !Paging.CanLoadMore(Step(s, SearchArrived(o, now)))
  {
    assert Step(s, SearchArrived(o, now)) == Semantic.CompleteSearch(s, o, now);
  }

  /** After a search is submitted, "load more" stays unavailable however the
      search ends, until a page fetch leaves semantic mode. */
  lemma NoLoadMoreInSemanticMode(s: State, o: Outcome, now: string)
    requires !Text.AllSpace(s.semanticQuery)
    ensures !Paging.CanLoadMore(Step(s, SearchSubmitted))
    ensures !Paging.CanLoadMore(Step(Step(s, SearchSubmitted), SearchArrived(o, now)))
    ensures !Step(Step(Step(s, SearchSubmitted), SearchArrived(o, now)), PageRequested).isSearchingSemantic
  {
    SubmitEntersSemanticMode(s);
    var s1 := Step(s, SearchSubmitted);
    ArrivalStaysInSemanticMode(s1, o, now);
    var s2 := Step(s1, SearchArrived(o, now));
    assert Step(s2, PageRequested) == Paging.StartFetch(s2, 1);
  }
}

=== FILE: detail.dfy ===
/** The detail view of a selected repository: the README effect, the
    translation request and the reset back to the original text. */
module Detail {
  import opened Types

  const NoReadmeText: string := "Could not load README."
  const ReadmeFailedText: string := "Failed to load README content."

  /** The README request: a parsed body whose `markdown` field is the given
      text ("" when absent or empty), or a rejected fetch or parse. The code
      parses the body whatever the HTTP status. */
  datatype ReadmeOutcome = ReadmeJson(markdown: string) | ReadmeRejected

  /** The translate request: a parsed body whose `translatedText` field is
      the given text ("" when absent or empty), or a rejected fetch or
      parse. */
  datatype TranslateOutcome = TranslateJson(translatedText: string) | TranslateRejected

  /** Nothing outside the detail view changes. */
  predicate SameOutsideDetail(s: State, r: State) {
    && SameFeed(s, r)
    && FiltersOf(r) == FiltersOf(s)
    && r.isUpdating == s.isUpdating
    && r.isBackfilling == s.isBackfilling
  }

  /** Clicking a repository card, followed by the effect that runs when
      `selectedRepo` becomes non-null: the detail state is reset and the
      README fetch begins. Cards are only rendered while no repository is
      selected, so the selection always changes here. */
  function SelectRepo(s: State, repo: Repo): (r: State)
    ensures r.selectedRepo == Some(repo)
    ensures r.readmeLoading && r.readme.None? && r.originalReadme.None?
    ensures !r.isTranslating && !r.showReadme
    ensures SameOutsideDetail(s, r)
  {
    s.(selectedRepo := Some(repo), readmeLoading := true, readme := None, originalReadme := None,
       isTranslating := false, showReadme := false)
  }

  /** The back button: the selection is cleared; the effect does nothing for
      a null selection, so the README state is left as it was. */
  function Deselect(s: State): (r: State)
    ensures r.selectedRepo.None? && !r.showReadme
    ensures r.readme == s.readme && r.originalReadme == s.originalReadme
    ensures r.readmeLoading == s.readmeLoading && r.isTranslating == s.isTranslating
    ensures SameOutsideDetail(s, r)
  {
    s.(selectedRepo := None, showReadme := false)
  }

  /** The text stored for a README body. */
  function ReadmeContent(markdown: string): (c: string)
    ensures c != ""
    ensures markdown != "" ==> c == markdown
    ensures markdown == "" ==> c == NoReadmeText
  {
    if markdown != "" then markdown else NoReadmeText
  }

  /** The README response arriving. It is applied to the current state
      whichever repository is selected by then. */
  function ReadmeLoaded(s: State, o: ReadmeOutcome): (r: State)
    ensures !r.readmeLoading
    ensures o.ReadmeJson? ==> r.readme == r.originalReadme == Some(ReadmeContent(o.markdown))
    ensures o.ReadmeRejected? ==> r.readme == Some(ReadmeFailedText) && r.originalReadme == s.originalReadme
    ensures r.selectedRepo == s.selectedRepo && r.isTranslating == s.isTranslating && r.showReadme == s.showReadme
    ensures SameOutsideDetail(s, r)
  {
    match o
    case ReadmeJson(m) =>
      var c := ReadmeContent(m);
      s.(readme := Some(c), originalReadme := Some(c), readmeLoading := false)
    case ReadmeRejected =>
      s.(readme := Some(ReadmeFailedText), readmeLoading := false)
  }

  /** A README failure right after a selection leaves no original to reset
      to. */
  lemma FailedReadmeHasNoOriginal(s: State, repo: Repo)
    ensures var r := ReadmeLoaded(SelectRepo(s, repo), ReadmeRejected);
            && r.readme == Some(ReadmeFailedText) && r.originalReadme.None? && !r.readmeLoading
  {
  }

  /** The guard of `handleTranslate`: README text present and no translation
      running. */
  predicate CanTranslate(s: State) {
    s.readme.Some? && s.readme.value != "" && !s.isTranslating
  }

  /** `handleTranslate` up to its `await`: the README text is sent and the
      in-progress flag set; otherwise nothing happens. No rendered control
      calls this handler. */
  function StartTranslate(s: State): (r: State)
    ensures !CanTranslate(s) ==> r == s
    ensures CanTranslate(s) ==> r == s.(isTranslating := true)
    ensures SameOutsideDetail(s, r)
  {
    if CanTranslate(s) then s.(isTranslating := true) else s
  }

  /** The translation response arriving: a non-empty translation replaces
      the current text; anything else leaves it. The original is never
      touched and the flag is always cleared. */
  function TranslateDone(s: State, o: TranslateOutcome): (r: State)
    ensures !r.isTranslating
    ensures r.originalReadme == s.originalReadme
    ensures o.TranslateJson? && o.translatedText != "" ==> r.readme == Some(o.translatedText)
    ensures !(o.TranslateJson? && o.translatedText != "") ==> r.readme == s.readme
    ensures r.selectedRepo == s.selectedRepo && r.readmeLoading == s.readmeLoading && r.showReadme == s.showReadme
    ensures SameOutsideDetail(s, r)
  {
    var s1 := if o.TranslateJson? && o.translatedText != "" then s.(readme := Some(o.translatedText)) else s;
    s1.(isTranslating := false)
  }

  /** `resetTranslation`: back to the original text, flag cleared. No
      rendered control calls this handler. */
  function ResetTranslation(s: State): (r: State)
    ensures r.readme == s.originalReadme && r.originalReadme == s.originalReadme && !r.isTranslating
    ensures r.selectedRepo == s.selectedRepo && r.readmeLoading == s.readmeLoading && r.showReadme == s.showReadme
    ensures SameOutsideDetail(s, r)
  {
    s.(readme := s.originalReadme, isTranslating := false)
  }

  lemma ResetIdempotent(s: State)
    ensures ResetTranslation(ResetTranslation(s)) == ResetTranslation(s)
  {
  }

  /** The README / AI-summary switch: a display toggle that fetches
      nothing. */
  function ToggleReadmeView(s: State): (r: State)
    ensures r.showReadme == !s.showReadme
    ensures r.readme == s.readme && r.originalReadme == s.originalReadme && r.isTranslating == s.isTranslating
    ensures r.selectedRepo == s.selectedRepo && r.readmeLoading == s.readmeLoading
    ensures SameOutsideDetail(s, r)
  {
    s.(showReadme := !s.showReadme)
  }

  /** The detail-view events the handlers define. The page renders no
      control that calls `handleTranslate` or `resetTranslation`, so of these
      only the view switch can happen in the program as written; the others
      model the handlers themselves. */
  datatype DetailEvent =
    | Translate
    | TranslateArrived(o: TranslateOutcome)
    | Reset
    | ToggleView

  function DetailStep(s: State, e: DetailEvent): State {
    match e
    case Translate => StartTranslate(s)
    case TranslateArrived(o) => TranslateDone(s, o)
    case Reset => ResetTranslation(s)
    case ToggleView => ToggleReadmeView(s)
  }

  function RunDetail(s: State, es: seq<DetailEvent>): State
    decreases |es|
  {
    if es == [] then s else RunDetail(DetailStep(s, es[0]), es[1..])
  }

  lemma DetailStepKeepsOriginal(s: State, e: DetailEvent)
    ensures DetailStep(s, e).originalReadme == s.originalReadme
    ensures DetailStep(s, e).selectedRepo == s.selectedRepo
  {
  }

  /** No sequence of translations, resets and view switches changes the
      original README text. */
  lemma {:induction false} DetailKeepsOriginal(s: State, es: seq<DetailEvent>)
    ensures RunDetail(s, es).originalReadme == s.originalReadme
    ensures RunDetail(s, es).selectedRepo == s.selectedRepo
    decreases |es|
  {
    if es != [] {
      var next := DetailStep(s, es[0]);
      DetailStepKeepsOriginal(s, es[0]);
      DetailKeepsOriginal(next, es[1..]);
      assert RunDetail(s, es) == RunDetail(next, es[1..]);
    }
  }

  /** Translate-then-reset round trip: after a README has loaded, whatever
      translations succeed or fail, a reset restores the loaded text
      exactly. */
  lemma TranslateResetRoundTrip(s: State, repo: Repo, markdown: string, es: seq<DetailEvent>)
    ensures var loaded := ReadmeLoaded(SelectRepo(s, repo), ReadmeJson(markdown));
            ResetTranslation(RunDetail(loaded, es)).readme == Some(ReadmeContent(markdown))
  {
    var loaded := ReadmeLoaded(SelectRepo(s, repo), ReadmeJson(markdown));
    DetailKeepsOriginal(loaded, es);
  }
}

=== FILE: paging.dfy ===
/** `fetchTrackerData`: the page-1 / page-N fetch of the feed, the merge of
    an incremental page, the `hasMore` bookkeeping and the failure handling,
    plus the "load more" button that drives it. */
module Paging {
  import opened Types
  import Text

  /** The `limit` every page request asks for. */
  const PageSize: nat := 50

  const TimeoutText: string := "Request timed out. The server might be busy."
  const DefaultText: string := "Failed to connect to tracker"
  const InvalidFormatText: string := "Invalid response format from server"
  const HttpSuffix: string := ": Failed to fetch data"

  /** The message thrown for a non-2xx page response: the body's `error`
      field, or a text naming the HTTP status, or the fallback used when the
      body is not JSON. */
  function HttpErrorMessage(status: nat, b: ErrorBody): (m: string)
    ensures m != ""
    ensures b.ErrorField? && b.text != "" ==> m == b.text
  {
    match b
    case Unparseable => UnknownErrorText
    case ErrorField(t) => if t != "" then t else "HTTP " + Text.NatToString(status) + HttpSuffix
  }

  /** Without an `error` field, two different statuses never produce the same
      message. */
  lemma HttpErrorMessageNamesStatus(s1: nat, s2: nat)
    requires s1 != s2
    ensures HttpErrorMessage(s1, ErrorField("")) != HttpErrorMessage(s2, ErrorField(""))
  {
    var a, b := Text.NatToString(s1), Text.NatToString(s2);
    var m1, m2 := "HTTP " + a + HttpSuffix, "HTTP " + b + HttpSuffix;
    if |a| < |b| {
      assert m1[5 + |a|] == ':' && Text.IsDigit(m2[5 + |a|]);
      assert m1[5 + |a|] != m2[5 + |a|];
    } else if |b| < |a| {
      assert m2[5 + |b|] == ':' && Text.IsDigit(m1[5 + |b|]);
      assert m1[5 + |b|] != m2[5 + |b|];
    } else {
      Text.ParseNatToString(s1);
      Text.ParseNatToString(s2);
      assert a != b;
      assert m1[5..5 + |a|] == a && m2[5..5 + |b|] == b;
    }
  }

  /** The response passes the `Array.isArray(jsonData.repos)` check. */
  predicate Valid(o: Outcome) {
    o.Responded? && o.body.JsonObject? && o.body.repos.Some?
  }

  function ToDashboard(o: Outcome): Dashboard
    requires Valid(o)
  {
    var j := o.body;
    Dashboard(j.sector, j.timestamp, j.repos.value, j.analysis, j.metadata)
  }

  /** The exception the `try` block of a page fetch ends with, when it does
      not succeed. */
  function FailureOf(o: Outcome): (f: Failure)
    requires !Valid(o)
    ensures f.Timeout? <==> o.TimedOut?
    ensures o.Responded? ==> f == Error(InvalidFormatText)
  {
    match o
    case Responded(_) => Error(InvalidFormatText)
    case HttpError(status, b) => Error(HttpErrorMessage(status, b))
    case TimedOut => Timeout
    case Thrown(m) => Error(m)
  }

  /** The `catch` block's choice of message: the timeout text, else the
      error's own message, else the fallback. */
  function Describe(f: Failure, timeoutText: string, defaultText: string): (m: string)
    ensures f.Timeout? ==> m == timeoutText
    ensures f.Error? && f.message != "" ==> m == f.message
    ensures f.Error? && f.message == "" ==> m == defaultText
    ensures timeoutText != "" && defaultText != "" ==> m != ""
  {
    match f
    case Timeout => timeoutText
    case Error(m) => if m != "" then m else defaultText
  }

  function FetchErrorText(o: Outcome): string
    requires !Valid(o)
  {
    Describe(FailureOf(o), TimeoutText, DefaultText)
  }

  /** The server's explicit `metadata.has_more`, if it sent one. */
  function ExplicitHasMore(d: Dashboard): Option<bool> {
    if d.metadata.Some? then d.metadata.value.hasMore else None
  }

  /** `metadata.has_more ?? repos.length === 50`. */
  function HasMoreAfter(d: Dashboard): (b: bool)
    ensures ExplicitHasMore(d).Some? ==> b == ExplicitHasMore(d).value
    ensures ExplicitHasMore(d).None? ==> (b <==> |d.repos| == PageSize)
  {
    match ExplicitHasMore(d)
    case Some(b) => b
    case None => |d.repos| == PageSize
  }

  /** The functional update applied to `data` for page N > 1: append the new
      repositories after the old ones, keep the old analysis, take the new
      metadata; with no previous data, the response itself. */
  function MergePage(prev: Option<Dashboard>, d: Dashboard): (r: Dashboard)
    ensures prev.None? ==> r == d
    ensures prev.Some? ==> && |r.repos| == |prev.value.repos| + |d.repos|
                           && r.repos[..|prev.value.repos|] == prev.value.repos
                           && r.repos[|prev.value.repos|..] == d.repos
    ensures prev.Some? ==> multiset(r.repos) == multiset(prev.value.repos) + multiset(d.repos)
    ensures prev.Some? ==> && r.sector == prev.value.sector
                           && r.timestamp == prev.value.timestamp
                           && r.analysis == prev.value.analysis
                           && r.metadata == d.metadata
  {
    match prev
    case None => d
    case Some(p) => p.(repos := p.repos + d.repos, metadata := d.metadata)
  }

  /** The state updates `fetchTrackerData(targetPage)` makes before it
      awaits the response. */
  function StartFetch(s: State, targetPage: PageNumber): (r: State)
    ensures targetPage == 1 ==> r.loading && r.page == 1 && r.hasMore && r.loadingMore == s.loadingMore
    ensures targetPage != 1 ==> && r.loadingMore
                                && r.loading == s.loading && r.page == s.page && r.hasMore == s.hasMore
    ensures r.error.None? && !r.isSearchingSemantic && r.semanticQuery == ""
    ensures r.data == s.data
    ensures SameOutsideFeed(s, r)
  {
    var s1 := if targetPage == 1 then s.(loading := true, page := 1, hasMore := true)
              else s.(loadingMore := true);
    s1.(error := None, isSearchingSemantic := false, semanticQuery := "")
  }

  /** The state updates `fetchTrackerData(targetPage)` makes once the
      response `o` has arrived. It is applied to whatever the state is by
      then: nothing ties it to the request that produced `o`. */
  function CompleteFetch(s: State, targetPage: PageNumber, o: Outcome): (r: State)
    // every path clears both loading flags
    ensures !r.loading && !r.loadingMore
    ensures SameOutsideFeed(s, r)
    ensures r.semanticQuery == s.semanticQuery && r.isSearchingSemantic == s.isSearchingSemantic
    // success: page 1 replaces the data, page N appends
    ensures Valid(o) && targetPage == 1 ==> r.data == Some(ToDashboard(o))
    ensures Valid(o) && targetPage != 1 && s.data.Some? ==>
      && r.data.Some?
      && r.data.value.repos == s.data.value.repos + o.body.repos.value
      && r.data.value.analysis == s.data.value.analysis
      && r.data.value.metadata == o.body.metadata
    ensures Valid(o) && targetPage != 1 && s.data.None? ==> r.data == Some(ToDashboard(o))
    ensures Valid(o) ==> r.page == targetPage && r.error == s.error
    ensures Valid(o) && o.body.metadata.Some? && o.body.metadata.value.hasMore.Some? ==>
      r.hasMore == o.body.metadata.value.hasMore.value
    ensures Valid(o) && (o.body.metadata.None? || o.body.metadata.value.hasMore.None?) ==>
      (r.hasMore <==> |o.body.repos.value| == PageSize)
    // failure: page 1 clears the data and reports; page N changes nothing else
    ensures !Valid(o) ==> r.page == s.page && r.hasMore == s.hasMore
    ensures !Valid(o) && targetPage == 1 ==> r.data.None? && r.error == Some(FetchErrorText(o))
    ensures !Valid(o) && targetPage != 1 ==> r.data == s.data && r.error == s.error
    // the messages a page-1 failure shows
    ensures targetPage == 1 && o.TimedOut? ==> r.error == Some(TimeoutText)
    ensures targetPage == 1 && o == Thrown("") ==> r.error == Some(DefaultText)
    ensures targetPage == 1 && o.Thrown? && o.message != "" ==> r.error == Some(o.message)
    ensures targetPage == 1 && o.Responded? && !Valid(o) ==> r.error == Some(InvalidFormatText)
    ensures targetPage == 1 && o.HttpError? ==> r.error == Some(HttpErrorMessage(o.status, o.errBody))
  {
    var s1 :=
      if Valid(o) then
        var d := ToDashboard(o);
        s.(data := Some(if targetPage == 1 then d else MergePage(s.data, d)),
           hasMore := HasMoreAfter(d),
           page := targetPage)
      else if targetPage == 1 then
        s.(error := Some(FetchErrorText(o)), data := None)
      else
        s;
    s1.(loading := false, loadingMore := false)
  }

  /** The whole call, when nothing else happens while it is in flight. */
  function Fetch(s: State, targetPage: PageNumber, o: Outcome): State {
    CompleteFetch(StartFetch(s, targetPage), targetPage, o)
  }

  /** A failed "load more" keeps the displayed data, shows no error (the
      start of the call cleared it) and stops both spinners. */
  lemma FailedLoadMoreKeepsData(s: State, targetPage: PageNumber, o: Outcome)
    requires targetPage != 1 && !Valid(o)
    ensures Fetch(s, targetPage, o).data == s.data
    ensures Fetch(s, targetPage, o).error.None?
    ensures !Fetch(s, targetPage, o).loading && !Fetch(s, targetPage, o).loadingMore
    ensures Fetch(s, targetPage, o).page == s.page
  {
  }

  /** The "Explore More" button exists only on the feed screen: there is
      data (the spinner and "Connection Error" screens return early without
      it) and no repository is selected (the detail view replaces the
      feed). There it is rendered when `hasMore` holds outside semantic
      mode, and enabled when no page-N load is running. */
  predicate CanLoadMore(s: State) {
    && s.data.Some? && s.selectedRepo.None?
    && s.hasMore && !s.isSearchingSemantic && !s.loadingMore
  }

  /** Clicking "Explore More": `fetchTrackerData(page + 1)`. */
  function LoadMore(s: State): (r: State)
    ensures !CanLoadMore(s) ==> r == s
    ensures CanLoadMore(s) ==> r.loadingMore && r.page == s.page && r.data == s.data && r.error.None?
    ensures SameOutsideFeed(s, r)
  {
    if CanLoadMore(s) then StartFetch(s, s.page + 1) else s
  }

  /** A page whose metadata says `has_more: false`, or that sends no
      `has_more` and holds other than 50 repositories, is the last one:
      afterwards "Explore More" is gone and clicking it does nothing. */
  lemma LastPageEndsFeed(s: State, targetPage: PageNumber, o: Outcome)
    requires Valid(o)
    requires || ExplicitHasMore(ToDashboard(o)) == Some(false)
             || (ExplicitHasMore(ToDashboard(o)).None? && |ToDashboard(o).repos| != PageSize)
    ensures !CompleteFetch(s, targetPage, o).hasMore
    ensures LoadMore(CompleteFetch(s, targetPage, o)) == CompleteFetch(s, targetPage, o)
  {
    assert !HasMoreAfter(ToDashboard(o));
  }

  /** With `has_more` absent, a full page of 50 keeps "Explore More"
      available on the feed screen, and a first page of 50 with `has_more:
      false` still ends the feed: the server's flag wins over the count. */
  lemma FullPageKeepsFeedOpen(s: State, o: Outcome)
    requires Valid(o) && |ToDashboard(o).repos| == PageSize
    requires s.selectedRepo.None? && !s.isSearchingSemantic
    ensures ExplicitHasMore(ToDashboard(o)).None? ==> CanLoadMore(CompleteFetch(s, 1, o))
    ensures ExplicitHasMore(ToDashboard(o)) == Some(false) ==> !CanLoadMore(CompleteFetch(s, 1, o))
  {
    assert HasMoreAfter(ToDashboard(o)) <==> ExplicitHasMore(ToDashboard(o)) != Some(false);
  }

  /** Appending successive pages, each applied as the previous one has
      completed. */
  function MergeAll(prev: Option<Dashboard>, pages: seq<Dashboard>): Option<Dashboard>
    decreases |pages|
  {
    if pages == [] then prev else MergeAll(Some(MergePage(prev, pages[0])), pages[1..])
  }

  function ConcatRepos(pages: seq<Dashboard>): seq<Entry>
    decreases |pages|
  {
    if pages == [] then [] else pages[0].repos + ConcatRepos(pages[1..])
  }

  /** Loading pages 2, 3, ... one after another shows the first page's
      repositories followed by every later page's, in order, with nothing
      removed; the analysis stays that of the first page and the metadata is
      the last page's. */
  lemma {:induction false} MergeAllConcatenates(first: Dashboard, pages: seq<Dashboard>)
    ensures MergeAll(Some(first), pages).Some?
    ensures MergeAll(Some(first), pages).value.repos == first.repos + ConcatRepos(pages)
    ensures MergeAll(Some(first), pages).value.analysis == first.analysis
    ensures pages != [] ==> MergeAll(Some(first), pages).value.metadata == pages[|pages| - 1].metadata
    decreases |pages|
  {
    if pages != [] {
      var next := MergePage(Some(first), pages[0]);
      MergeAllConcatenates(next, pages[1..]);
      assert first.repos + pages[0].repos + ConcatRepos(pages[1..])
          == first.repos + (pages[0].repos + ConcatRepos(pages[1..]));
      if |pages| > 1 {
        assert pages[1..][|pages[1..]| - 1] == pages[|pages| - 1];
      }
    }
  }
}

=== FILE: semantic.dfy ===
/** `handleSemanticSearch`: the alternate acquisition path whose response
    carries no analysis, so the controller recomputes the means and trend
    counts itself. The search form that calls it (app/page.tsx:507-533) is
    commented out, so the handler is modelled although no rendered control
    reaches it. */
module Semantic {
  import opened Types
  import Text

  const SemanticTimeoutText: string := "Search timed out. Please try again."
  const WeaviateText: string := "Semantic search database is not running. Ensure Weaviate is configured."
  const UnavailableText: string := "Semantic search is currently unavailable."
  const SearchFailedText: string := "Semantic search failed"
  const InvalidSearchText: string := "Invalid response from semantic search"
  const SemanticSector: string := "semantic-search"
  const UnknownTrend: string := "unknown"

  /** The message of the TypeError a JavaScript engine throws when a
      property is read from `null` (V8's wording). */
  function NullRead(prop: string): string {
    "Cannot read properties of null (reading '" + prop + "')"
  }

  predicate AllPresent(es: seq<Entry>) {
    forall i :: 0 <= i < |es| ==> es[i].Present?
  }

  function Unwrap(es: seq<Entry>): (rs: seq<Repo>)
    requires AllPresent(es)
    ensures |rs| == |es| && forall i :: 0 <= i < |es| ==> es[i] == Present(rs[i])
  {
    seq(|es|, i requires 0 <= i < |es| => es[i].repo)
  }

  /** `r.velocity_metrics?.velocity_7d || 0`. */
  function Velocity7d(r: Repo): real {
    if r.velocity.Some? && r.velocity.value.velocity7d.Some? then r.velocity.value.velocity7d.value else 0.0
  }

  /** `r.velocity_metrics?.velocity_30d || 0`. */
  function Velocity30d(r: Repo): real {
    if r.velocity.Some? && r.velocity.value.velocity30d.Some? then r.velocity.value.velocity30d.value else 0.0
  }

  /** `repos.reduce((sum, r) => sum + f(r), 0)`: a left fold. */
  function Sum(rs: seq<Repo>, f: Repo -> real): real
    decreases |rs|
  {
    if rs == [] then 0.0 else Sum(rs[..|rs| - 1], f) + f(rs[|rs| - 1])
  }

  /** The guarded mean: the sum over the count, or 0 for an empty result. */
  function Mean(rs: seq<Repo>, f: Repo -> real): (m: real)
    ensures |rs| == 0 ==> m == 0.0
    ensures |rs| > 0 ==> m * (|rs| as real) == Sum(rs, f)
  {
    if |rs| > 0 then Sum(rs, f) / (|rs| as real) else 0.0
  }

  lemma {:induction false} SumBounds(rs: seq<Repo>, f: Repo -> real, lo: real, hi: real)
    requires forall i :: 0 <= i < |rs| ==> lo <= f(rs[i]) <= hi
    ensures (|rs| as real) * lo <= Sum(rs, f) <= (|rs| as real) * hi
    decreases |rs|
  {
    if rs != [] {
      var p := rs[..|rs| - 1];
      assert forall i :: 0 <= i < |p| ==> p[i] == rs[i];
      SumBounds(p, f, lo, hi);
      assert (|rs| as real) * lo == (|p| as real) * lo + lo;
      assert (|rs| as real) * hi == (|p| as real) * hi + hi;
    }
  }

  /** The mean of a non-empty result lies between the smallest and the
      largest value; in particular a result whose values all equal `c` has
      mean `c`. */
  lemma MeanBounds(rs: seq<Repo>, f: Repo -> real, lo: real, hi: real)
    requires |rs| > 0
    requires forall i :: 0 <= i < |rs| ==> lo <= f(rs[i]) <= hi
    ensures lo <= Mean(rs, f) <= hi
  {
    SumBounds(rs, f, lo, hi);
    var n := |rs| as real;
    var m := Mean(rs, f);
    assert m * n == Sum(rs, f);
    assert n * lo <= m * n <= n * hi;
    MulMonotone(lo, m, n);
    MulMonotone(m, hi, n);
  }

  lemma MulMonotone(a: real, b: real, n: real)
    requires n > 0.0 && n * a <= n * b
    ensures a <= b
  {
    assert n * (b - a) >= 0.0;
  }

  /** `r.velocity_metrics?.trend || 'unknown'`. */
  function TrendKey(r: Repo): string {
    if r.velocity.Some? && r.velocity.value.trend != "" then r.velocity.value.trend else UnknownTrend
  }

  function TrendKeys(rs: seq<Repo>): (ks: seq<string>)
    ensures |ks| == |rs| && forall i :: 0 <= i < |rs| ==> ks[i] == TrendKey(rs[i])
  {
    seq(|rs|, i requires 0 <= i < |rs| => TrendKey(rs[i]))
  }

  /** `m[k] || 0`. */
  function Lookup(m: map<string, int>, k: string): int {
    if k in m then m[k] else 0
  }

  /** The `forEach` that increments `trends[trend]` once per repository. */
  function CountTrends(rs: seq<Repo>): map<string, int>
    decreases |rs|
  {
    if rs == [] then map[]
    else
      var m := CountTrends(rs[..|rs| - 1]);
      var k := TrendKey(rs[|rs| - 1]);
      m[k := Lookup(m, k) + 1]
  }

  /** The trend counts are exactly the multiplicities of the repositories'
      trend keys: a key is present iff some repository has it, and its count
      is the number of repositories that do. Since that multiset has one key
      per repository, the counts add up to the number of results. */
  lemma {:induction false} CountTrendsIsMultiset(rs: seq<Repo>)
    ensures forall k :: k in CountTrends(rs) <==> k in TrendKeys(rs)
    ensures forall k :: Lookup(CountTrends(rs), k) == multiset(TrendKeys(rs))[k]
    ensures |multiset(TrendKeys(rs))| == |rs|
    decreases |rs|
  {
    if rs != [] {
      var p := rs[..|rs| - 1];
      CountTrendsIsMultiset(p);
      assert TrendKeys(rs) == TrendKeys(p) + [TrendKey(rs[|rs| - 1])];
    }
  }

  /** The analysis block built for the semantic results. */
  function Aggregate(rs: seq<Repo>): (a: Analysis)
    ensures a.totalRepos == |rs|
    ensures a.avgVelocity7d == Mean(rs, Velocity7d) && a.avgVelocity30d == Mean(rs, Velocity30d)
    ensures forall k :: Lookup(a.trends, k) == multiset(TrendKeys(rs))[k]
    ensures forall k :: k in a.trends <==> k in TrendKeys(rs)
    ensures a.viralCount == multiset(TrendKeys(rs))["viral"]
    ensures a.acceleratingCount == multiset(TrendKeys(rs))["accelerating"]
  {
    CountTrendsIsMultiset(rs);
    var trends := CountTrends(rs);
    Analysis(|rs|, Mean(rs, Velocity7d), Mean(rs, Velocity30d), trends,
             Lookup(trends, "viral"), Lookup(trends, "accelerating"))
  }

  /** A repository with only a 7-day velocity and a trend, for the worked
      examples below. */
  function SampleRepo(v7: real, trend: string): Repo {
    Repo("", "", "", [], [], None, Some(Velocity(Some(v7), None, trend)))
  }

  /** Means 10, 20, 30 average to 20; an empty result averages to 0. */
  lemma MeanExample()
    ensures Aggregate([SampleRepo(10.0, "viral"), SampleRepo(20.0, "viral"), SampleRepo(30.0, "")]).avgVelocity7d == 20.0
    ensures Aggregate([]).avgVelocity7d == 0.0
  {
    var rs := [SampleRepo(10.0, "viral"), SampleRepo(20.0, "viral"), SampleRepo(30.0, "")];
    var p1, p2 := [SampleRepo(10.0, "viral")], [SampleRepo(10.0, "viral"), SampleRepo(20.0, "viral")];
    assert p1[..0] == [] && p2[..1] == p1 && rs[..2] == p2;
    assert Sum(p1, Velocity7d) == 10.0;
    assert Sum(p2, Velocity7d) == 30.0;
    assert Sum(rs, Velocity7d) == 60.0;
    assert Mean(rs, Velocity7d) * 3.0 == 60.0;
    assert Aggregate(rs).avgVelocity7d == Mean(rs, Velocity7d);
  }

  /** Trends viral, viral, accelerating and a missing one count as viral 2,
      accelerating 1 and unknown 1. */
  lemma TrendExample()
    ensures var a := Aggregate([SampleRepo(0.0, "viral"), SampleRepo(0.0, "viral"), SampleRepo(0.0, "accelerating"), SampleRepo(0.0, "")]);
            && a.viralCount == 2 && a.acceleratingCount == 1 && Lookup(a.trends, UnknownTrend) == 1
  {
    var rs := [SampleRepo(0.0, "viral"), SampleRepo(0.0, "viral"), SampleRepo(0.0, "accelerating"), SampleRepo(0.0, "")];
    assert TrendKeys(rs) == ["viral", "viral", "accelerating", UnknownTrend];
    assert multiset(TrendKeys(rs)) == multiset{"viral", "viral", "accelerating", UnknownTrend};
  }

  /** The outcome of the `try` block of the search: the repositories it
      stores, or the exception it ends with. */
  function SearchCall(o: Outcome): (r: Result<seq<Entry>>)
    ensures r.Ok? ==> o.Responded? && o.body.JsonObject? && o.body.repos == Some(r.value) && AllPresent(r.value)
    ensures o.Responded? && o.body.JsonObject? && o.body.repos.Some? && AllPresent(o.body.repos.value) ==> r.Ok?
    ensures r.Err? ==> (r.failure.Timeout? <==> o.TimedOut?)
  {
    match o
    case Responded(JsonNull) => Err(Error(NullRead("repos")))
    case Responded(JsonObject(_, _, None, _, _)) => Err(Error(InvalidSearchText))
    case Responded(JsonObject(_, _, Some(es), _, _)) =>
      // averaging reads `velocity_metrics` of every entry, and throws on null
      if AllPresent(es) then Ok(es) else Err(Error(NullRead("velocity_metrics")))
    case HttpError(_, Unparseable) => Err(Error(UnknownErrorText))
    case HttpError(_, ErrorField(t)) => Err(Error(if t != "" then t else SearchFailedText))
    case TimedOut => Err(Timeout)
    case Thrown(m) => Err(Error(m))
  }

  /** The `catch` block's message, refined for the vector database. */
  function SearchMessage(f: Failure): (m: string)
    ensures m != ""
    ensures f.Timeout? ==> m == SemanticTimeoutText
    ensures f.Error? && Text.Contains(f.message, "Weaviate") ==> m == WeaviateText
    ensures f.Error? && !Text.Contains(f.message, "Weaviate") && f.message != "" ==> m == f.message
    ensures f == Error("") ==> m == UnavailableText
  {
    match f
    case Timeout => SemanticTimeoutText
    case Error(msg) =>
      if Text.Contains(msg, "Weaviate") then WeaviateText
      else if msg != "" then msg
      else UnavailableText
  }

  /** Submitting the search form: nothing happens for a blank query;
      otherwise the loading flag and semantic mode are set and the error
      cleared. */
  function StartSearch(s: State): (r: State)
    ensures Text.AllSpace(s.semanticQuery) ==> r == s
    ensures !Text.AllSpace(s.semanticQuery) ==> && r.loading && r.isSearchingSemantic && r.error.None?
                                                && r.data == s.data && r.page == s.page && r.hasMore == s.hasMore
                                                && r.loadingMore == s.loadingMore
                                                && r.semanticQuery == s.semanticQuery
    ensures SameOutsideFeed(s, r)
  {
    Text.TrimEmptyIff(s.semanticQuery);
    if Text.Trim(s.semanticQuery) == [] then s
    else s.(loading := true, isSearchingSemantic := true, error := None)
  }

  /** The search response `o` arriving at `now`: the results are stored
      verbatim with a locally computed analysis, or the data is cleared and an
      error shown. Semantic mode stays on either way. */
  function CompleteSearch(s: State, o: Outcome, now: string): (r: State)
    ensures !r.loading
    ensures SameOutsideFeed(s, r)
    ensures && r.loadingMore == s.loadingMore && r.page == s.page && r.hasMore == s.hasMore
            && r.semanticQuery == s.semanticQuery && r.isSearchingSemantic == s.isSearchingSemantic
    ensures SearchCall(o).Ok? ==>
      && r.data.Some? && r.error == s.error
      && r.data.value.repos == o.body.repos.value
      && r.data.value.sector == SemanticSector
      && r.data.value.analysis == Some(Aggregate(Unwrap(o.body.repos.value)))
      && r.data.value.metadata.Some? && r.data.value.metadata.value.count == |o.body.repos.value|
      && r.data.value.metadata.value.hasMore.None?
    ensures SearchCall(o).Err? ==> r.data.None? && r.error == Some(SearchMessage(SearchCall(o).failure))
    ensures o.TimedOut? ==> r.error == Some(SemanticTimeoutText)
  {
    match SearchCall(o)
    case Ok(es) =>
      var n := |es|;
      s.(data := Some(Dashboard(SemanticSector, now, es, Some(Aggregate(Unwrap(es))),
                                Some(Metadata(now, 0, 0, n, None, None)))),
         loading := false)
    case Err(f) =>
      s.(error := Some(SearchMessage(f)), data := None, loading := false)
  }
}

=== FILE: text.dfy ===
/** The JavaScript string operations the controller relies on:
    `includes`, `toLowerCase`, `trim`, `join` and number-to-string in a
    template literal. */
module Text {

  /** `needle` occurs in `s` starting at index `i`. */
  ghost predicate OccursAt(s: string, needle: string, i: int) {
    0 <= i && i + |needle| <= |s| && s[i..i + |needle|] == needle
  }

  /** `s.includes(needle)`: a left-to-right scan. */
  predicate Contains(s: string, needle: string)
    decreases |s|
  {
    if |needle| > |s| then false
    else s[..|needle|] == needle || Contains(s[1..], needle)
  }

  /** The scan finds `needle` exactly when it occurs at some index; in
      particular the empty needle is found in every string. */
  lemma {:induction false} ContainsIff(s: string, needle: string)
    ensures Contains(s, needle) <==> exists i :: OccursAt(s, needle, i)
    decreases |s|
  {
    if |needle| > |s| {
    } else if s[..|needle|] == needle {
      assert OccursAt(s, needle, 0);
    } else {
      ContainsIff(s[1..], needle);
      if Contains(s[1..], needle) {
        var i :| OccursAt(s[1..], needle, i);
        assert s[1..][i..i + |needle|] == s[i + 1..i + 1 + |needle|];
        assert OccursAt(s, needle, i + 1);
      }
      if exists j :: OccursAt(s, needle, j) {
        var j :| OccursAt(s, needle, j);
        assert j != 0;
        assert s[1..][j - 1..j - 1 + |needle|] == s[j..j + |needle|];
        assert OccursAt(s[1..], needle, j - 1);
      }
    }
  }

  /** An occurrence inside a part of a concatenation is an occurrence in the
      whole. */
  lemma ContainsInRight(a: string, b: string, needle: string)
    requires Contains(b, needle)
    ensures Contains(a + b, needle)
  {
    ContainsIff(b, needle);
    ContainsIff(a + b, needle);
    var i :| OccursAt(b, needle, i);
    assert (a + b)[|a| + i..|a| + i + |needle|] == b[i..i + |needle|];
    assert OccursAt(a + b, needle, |a| + i);
  }

  lemma ContainsInLeft(a: string, b: string, needle: string)
    requires Contains(a, needle)
    ensures Contains(a + b, needle)
  {
    ContainsIff(a, needle);
    ContainsIff(a + b, needle);
    var i :| OccursAt(a, needle, i);
    assert (a + b)[i..i + |needle|] == a[i..i + |needle|];
    assert OccursAt(a + b, needle, i);
  }

  /** Every part of a concatenation is found in it. */
  lemma ContainsParts(a: string, b: string, c: string)
    ensures Contains(a + b + c, a) && Contains(a + b + c, b) && Contains(a + b + c, c)
  {
    assert Contains(a, a) && Contains(b, b) && Contains(c, c);
    ContainsInLeft(a, b + c, a);
    assert a + (b + c) == a + b + c;
    ContainsInLeft(b, c, b);
    ContainsInRight(a, b + c, b);
    ContainsInRight(a + b, c, c);
  }

  function LowerChar(c: char): char {
    if 'A' <= c <= 'Z' then (c as int + 32) as char else c
  }

  /** `toLowerCase()` on the ASCII letters; every other character is kept. */
  function ToLower(s: string): (r: string)
    ensures |r| == |s|
    ensures forall i :: 0 <= i < |s| ==> r[i] == LowerChar(s[i])
  {
    seq(|s|, i requires 0 <= i < |s| => LowerChar(s[i]))
  }

  /** Lower-casing both sides keeps every occurrence where it was. */
  lemma LowerOccurs(s: string, needle: string, k: int)
    requires OccursAt(s, needle, k)
    ensures OccursAt(ToLower(s), ToLower(needle), k)
  {
    forall j | 0 <= j < |needle|
      ensures ToLower(s)[k..k + |needle|][j] == ToLower(needle)[j]
    {
      assert s[k..k + |needle|][j] == needle[j];
    }
  }

  /** `s.includes(needle)` implies `s.toLowerCase().includes(needle.toLowerCase())`. */
  lemma LowerContains(s: string, needle: string)
    requires Contains(s, needle)
    ensures Contains(ToLower(s), ToLower(needle))
  {
    ContainsIff(s, needle);
    var k :| OccursAt(s, needle, k);
    LowerOccurs(s, needle, k);
    ContainsIff(ToLower(s), ToLower(needle));
  }

  /** The characters `String.prototype.trim` removes: the ECMAScript
      WhiteSpace and LineTerminator code points. */
  predicate IsSpace(c: char) {
    var n := c as int;
    || n == 0x09 || n == 0x0A || n == 0x0B || n == 0x0C || n == 0x0D || n == 0x20
    || n == 0xA0 || n == 0x1680 || (0x2000 <= n <= 0x200A) || n == 0x2028
    || n == 0x2029 || n == 0x202F || n == 0x205F || n == 0x3000 || n == 0xFEFF
  }

  /** Removes the leading white space, and only that. */
  function TrimStart(s: string): (r: string)
    ensures |r| <= |s| && r == s[|s| - |r|..]
    ensures AllSpace(s[..|s| - |r|])
    ensures r != [] ==> !IsSpace(r[0])
  {
    if s != [] && IsSpace(s[0]) then
      var r := TrimStart(s[1..]);
      TrimStartStep(s, r);
      r
    else
      assert s[..0] == [];
      s
  }

  /** Removes the trailing white space, and only that. */
  function TrimEnd(s: string): (r: string)
    ensures |r| <= |s| && r == s[..|r|]
    ensures AllSpace(s[|r|..])
    ensures r != [] ==> !IsSpace(r[|r| - 1])
  {
    if s != [] && IsSpace(s[|s| - 1]) then
      var r := TrimEnd(s[..|s| - 1]);
      SpaceSuffix(s, |r|);
      r
    else
      assert s[|s|..] == [];
      s
  }

  /** `s.trim()`: a slice of `s` that neither starts nor ends with white
      space. */
  function Trim(s: string): (r: string)
    ensures exists i, j :: TrimmedSlice(s, r, i, j)
    ensures r != [] ==> !IsSpace(r[0]) && !IsSpace(r[|r| - 1])
  {
    var t := TrimStart(s);
    var r := TrimEnd(t);
    TrimmedParts(s, t, r);
    assert r != [] ==> r[0] == t[0];
    r
  }

  ghost predicate AllSpace(s: string) {
    forall i :: 0 <= i < |s| ==> IsSpace(s[i])
  }

  /** Cutting a leading white-space character and then a white-space
      prefix of the rest cuts a white-space prefix of `s`. */
  lemma TrimStartStep(s: string, r: string)
    requires s != [] && IsSpace(s[0])
    requires |r| <= |s| - 1 && r == s[1..][|s| - 1 - |r|..] && AllSpace(s[1..][..|s| - 1 - |r|])
    ensures r == s[|s| - |r|..] && AllSpace(s[..|s| - |r|])
  {
    assert s[1..][|s| - 1 - |r|..] == s[|s| - |r|..];
    SpacePrefix(s, |s| - |r|);
  }

  /** A white-space character followed by white space is white space. */
  lemma SpacePrefix(s: string, k: int)
    requires 1 <= k <= |s| && IsSpace(s[0]) && AllSpace(s[1..][..k - 1])
    ensures AllSpace(s[..k])
  {
    forall i | 1 <= i < k ensures IsSpace(s[..k][i]) {
      assert s[..k][i] == s[1..][..k - 1][i - 1];
    }
  }

  /** White space followed by a white-space character is white space. */
  lemma SpaceSuffix(s: string, k: int)
    requires 0 <= k < |s| && IsSpace(s[|s| - 1]) && AllSpace(s[..|s| - 1][k..])
    ensures AllSpace(s[k..])
  {
    forall i | 0 <= i < |s| - 1 - k ensures IsSpace(s[k..][i]) {
      assert s[k..][i] == s[..|s| - 1][k..][i];
    }
  }

  /** `r` is `s[i..j]`, and everything cut off on either side is white
      space. */
  ghost predicate TrimmedSlice(s: string, r: string, i: int, j: int) {
    0 <= i <= j <= |s| && r == s[i..j] && AllSpace(s[..i]) && AllSpace(s[j..])
  }

  /** A white-space prefix cut off `s`, then a white-space suffix cut off
      what is left, leave a trimmed slice of `s`. */
  lemma TrimmedParts(s: string, t: string, r: string)
    requires |t| <= |s| && t == s[|s| - |t|..] && AllSpace(s[..|s| - |t|])
    requires |r| <= |t| && r == t[..|r|] && AllSpace(t[|r|..])
    ensures TrimmedSlice(s, r, |s| - |t|, |s| - |t| + |r|)
  {
    var a := |s| - |t|;
    assert s[a..][..|r|] == s[a..a + |r|];
    assert t[|r|..] == s[a + |r|..];
  }

  lemma {:induction false} TrimStartEmptyIff(s: string)
    ensures TrimStart(s) == [] <==> AllSpace(s)
  {
    if s != [] && IsSpace(s[0]) {
      TrimStartEmptyIff(s[1..]);
      assert AllSpace(s[1..]) ==> AllSpace(s) by {
        if AllSpace(s[1..]) {
          forall i | 0 <= i < |s| ensures IsSpace(s[i]) {
            if i > 0 { assert s[i] == s[1..][i - 1]; }
          }
        }
      }
    }
  }

  /** A query is blank (`!q.trim()`) exactly when every character of it is
      white space. */
  lemma TrimEmptyIff(s: string)
    ensures Trim(s) == [] <==> AllSpace(s)
  {
    TrimStartEmptyIff(s);
    var t := TrimStart(s);
    if t != [] {
      assert TrimEnd(t) != [] by { assert !IsSpace(t[0]); TrimEndKeepsNonSpaceHead(t); }
    }
  }

  lemma {:induction false} TrimEndKeepsNonSpaceHead(t: string)
    requires t != [] && !IsSpace(t[0])
    ensures TrimEnd(t) != []
    decreases |t|
  {
    if IsSpace(t[|t| - 1]) {
      TrimEndKeepsNonSpaceHead(t[..|t| - 1]);
    }
  }

  /** `parts.join(sep)`: every part can be found in the result. */
  function Join(parts: seq<string>, sep: string): (r: string)
    ensures parts == [] ==> r == ""
    ensures forall i :: 0 <= i < |parts| ==> Contains(r, parts[i])
    decreases |parts|
  {
    if |parts| == 0 then ""
    else if |parts| == 1 then
      assert Contains(parts[0], parts[0]);
      parts[0]
    else
      var rest := Join(parts[1..], sep);
      ContainsParts(parts[0], sep, rest);
      assert forall i :: 1 <= i < |parts| ==> parts[i] == parts[1..][i - 1] && Contains(rest, parts[i]);
      ContainsAllInRight(parts[0] + sep, rest, parts[1..]);
      parts[0] + sep + rest
  }

  /** A single part is joined to itself. */
  lemma JoinSingle(x: string, sep: string)
    ensures Join([x], sep) == x
  {
  }

  /** Joining two non-empty lists of parts joins each list and puts one
      separator between them, so the parts keep their order, one separator
      apart. */
  lemma {:induction false} JoinAppend(a: seq<string>, b: seq<string>, sep: string)
    requires a != [] && b != []
    ensures Join(a + b, sep) == Join(a, sep) + sep + Join(b, sep)
    decreases |a|
  {
    assert (a + b)[0] == a[0];
    if |a| == 1 {
      assert (a + b)[1..] == b;
    } else {
      assert (a + b)[1..] == a[1..] + b;
      JoinAppend(a[1..], b, sep);
    }
  }

  /** Lower-casing works character by character, so it distributes over
      concatenation. */
  lemma LowerAppend(a: string, b: string)
    ensures ToLower(a + b) == ToLower(a) + ToLower(b)
  {
    assert forall i :: 0 <= i < |a| ==> (a + b)[i] == a[i];
    assert forall i :: |a| <= i < |a + b| ==> (a + b)[i] == b[i - |a|];
  }

  lemma ContainsAllInRight(a: string, b: string, needles: seq<string>)
    requires forall i :: 0 <= i < |needles| ==> Contains(b, needles[i])
    ensures forall i :: 0 <= i < |needles| ==> Contains(a + b, needles[i])
  {
    forall i | 0 <= i < |needles| ensures Contains(a + b, needles[i]) {
      ContainsInRight(a, b, needles[i]);
    }
  }

  predicate IsDigit(c: char) {
    '0' <= c <= '9'
  }

  function DigitChar(d: nat): (c: char)
    requires d < 10
    ensures IsDigit(c)
  {
    ('0' as int + d) as char
  }

  /** The decimal rendering of a non-negative integer in a template literal:
      digits only, no leading zero. */
  function NatToString(n: nat): (r: string)
    ensures |r| >= 1
    ensures forall i :: 0 <= i < |r| ==> IsDigit(r[i])
    ensures r[0] == '0' ==> n == 0
    decreases n
  {
    if n < 10 then [DigitChar(n)] else NatToString(n / 10) + [DigitChar(n % 10)]
  }

  function ParseDigits(s: string): nat
    requires forall i :: 0 <= i < |s| ==> IsDigit(s[i])
  {
    if s == [] then 0
    else
      assert IsDigit(s[|s| - 1]);
      ParseDigits(s[..|s| - 1]) * 10 + (s[|s| - 1] as int - '0' as int)
  }

  /** Reading the decimal text back gives the number: distinct statuses
      render as distinct texts. */
  lemma {:induction false} ParseNatToString(n: nat)
    ensures ParseDigits(NatToString(n)) == n
    decreases n
  {
    if n >= 10 {
      ParseNatToString(n / 10);
      var r := NatToString(n);
      assert r[..|r| - 1] == NatToString(n / 10);
    }
  }
}

=== FILE: types.dfy ===
/** Data model of the dashboard's feed controller: the records the backend
    returns, the outcomes of network calls, and the single state record that
    the React component keeps in its `useState` hooks. */
module Types {

  datatype Option<T> = None | Some(value: T)

  /** Page numbers the controller requests: it only ever asks for page 1 or
      for `page + 1`. */
  type PageNumber = p: int | p >= 1 witness 1

  /** The velocity block of a repository. Absent numeric fields are `None`;
      an absent or empty `trend` is the empty string. */
  datatype Velocity = Velocity(velocity7d: Option<real>, velocity30d: Option<real>, trend: string)

  /** A repository as the controller uses it. Absent text fields are the empty
      string and absent tag lists are empty; display-only fields (stars, forks,
      url, ...) play no part in the controller and are not carried. */
  datatype Repo = Repo(
    fullName: string,
    name: string,
    description: string,
    topics: seq<string>,
    marketTags: seq<string>,
    relevancy: Option<real>,
    velocity: Option<Velocity>)

  /** An element of a `repos` array: the code guards against `null` entries. */
  datatype Entry = Null | Present(repo: Repo)

  datatype Analysis = Analysis(
    totalRepos: int,
    avgVelocity7d: real,
    avgVelocity30d: real,
    trends: map<string, int>,
    viralCount: int,
    acceleratingCount: int)

  datatype Metadata = Metadata(
    searchDate: string,
    daysBack: int,
    minStars: int,
    count: int,
    page: Option<int>,
    hasMore: Option<bool>)

  /** The `data` state: a validated response whose `repos` is an array. */
  datatype Dashboard = Dashboard(
    sector: string,
    timestamp: string,
    repos: seq<Entry>,
    analysis: Option<Analysis>,
    metadata: Option<Metadata>)

  /** A decoded JSON body; `repos == None` when the field is not an array. */
  datatype Json =
    | JsonNull
    | JsonObject(sector: string, timestamp: string, repos: Option<seq<Entry>>,
                 analysis: Option<Analysis>, metadata: Option<Metadata>)

  /** The body of a non-2xx response: unparseable, or its `error` field
      (the empty string when that field is absent or empty). */
  datatype ErrorBody = Unparseable | ErrorField(text: string)

  /** The text both request handlers substitute when a non-2xx body cannot
      be parsed. */
  const UnknownErrorText: string := "Unknown error"

  /** What an `await fetch(...)` followed by `res.json()` can produce. */
  datatype Outcome =
    | Responded(body: Json)                    // 2xx with a JSON body
    | HttpError(status: nat, errBody: ErrorBody)  // `!res.ok`
    | TimedOut                                 // the AbortSignal timeout fired
    | Thrown(message: string)                  // transport or parse error; "" when it has no message

  /** A caught exception, as the handlers inspect it: a timeout, or an error
      with a (possibly empty) message. */
  datatype Failure = Timeout | Error(message: string)

  datatype Result<T> = Ok(value: T) | Err(failure: Failure)

  datatype SortKey = ByTrend | ByVelocity7d | ByVelocity30d | ByStars | ByForks

  /** Every `useState` hook of the component that the controller reads or
      writes (theme and the subscribe modal are not part of it). */
  datatype State = State(
    data: Option<Dashboard>,
    loading: bool,
    loadingMore: bool,
    error: Option<string>,
    page: PageNumber,
    hasMore: bool,
    sector: string,
    tag: Option<string>,
    timeHorizon: Option<int>,
    sortBy: SortKey,
    selectedRepo: Option<Repo>,
    readme: Option<string>,
    originalReadme: Option<string>,
    readmeLoading: bool,
    isTranslating: bool,
    showReadme: bool,
    isUpdating: bool,
    isBackfilling: bool,
    semanticQuery: string,
    isSearchingSemantic: bool)

  /** The initial values of the hooks. */
  const Initial: State := State(
    None, true, false, None, 1, true, "all", None, None, ByTrend,
    None, None, None, false, false, false, false, false, "", false)

  /** The four filter selections whose change re-runs the page-1 fetch. */
  datatype Filters = Filters(sector: string, tag: Option<string>, timeHorizon: Option<int>, sortBy: SortKey)

  function FiltersOf(s: State): Filters {
    Filters(s.sector, s.tag, s.timeHorizon, s.sortBy)
  }

  /** `s` and `r` agree on everything outside the feed: filters, detail view,
      and admin flags. */
  predicate SameOutsideFeed(s: State, r: State) {
    && FiltersOf(r) == FiltersOf(s)
    && r.selectedRepo == s.selectedRepo
    && r.readme == s.readme
    && r.originalReadme == s.originalReadme
    && r.readmeLoading == s.readmeLoading
    && r.isTranslating == s.isTranslating
    && r.showReadme == s.showReadme
    && r.isUpdating == s.isUpdating
    && r.isBackfilling == s.isBackfilling
  }

  /** `s` and `r` agree on the feed: data, paging and loading flags, error,
      and semantic mode. */
  predicate SameFeed(s: State, r: State) {
    && r.data == s.data
    && r.loading == s.loading
    && r.loadingMore == s.loadingMore
    && r.error == s.error
    && r.page == s.page
    && r.hasMore == s.hasMore
    && r.semanticQuery == s.semanticQuery
    && r.isSearchingSemantic == s.isSearchingSemantic
  }
}

=== FILE: views.dfy ===
/** Values the dashboard derives from `data` on every render: the displayed
    repositories, the per-sector counts and the discovery-tag chips, plus the
    tag-chip toggle. */
module Views {
  import opened Types
  import Text
  import Paging

  /** The `displayedRepos` filter: drop `null` entries and those the backend
      scored with relevancy exactly 0. */
  predicate Shown(e: Entry) {
    e.Present? && e.repo.relevancy != Some(0.0)
  }

  function Displayed(es: seq<Entry>): (r: seq<Entry>)
    ensures |r| <= |es|
    ensures forall i :: 0 <= i < |r| ==> Shown(r[i])
    ensures forall i :: 0 <= i < |r| ==> r[i] in es
    decreases |es|
  {
    if es == [] then []
    else (if Shown(es[0]) then [es[0]] else []) + Displayed(es[1..])
  }

  /** Filtering distributes over concatenation, so it keeps the relative
      order of the entries it keeps. */
  lemma {:induction false} DisplayedAppend(a: seq<Entry>, b: seq<Entry>)
    ensures Displayed(a + b) == Displayed(a) + Displayed(b)
    decreases |a|
  {
    if a == [] {
      assert a + b == b;
    } else {
      assert (a + b)[0] == a[0] && (a + b)[1..] == a[1..] + b;
      DisplayedAppend(a[1..], b);
    }
  }

  /** Every shown entry is kept as often as it occurs, and nothing else is
      kept. */
  lemma {:induction false} DisplayedCounts(es: seq<Entry>)
    ensures forall e :: multiset(Displayed(es))[e] == if Shown(e) then multiset(es)[e] else 0
    decreases |es|
  {
    if es != [] {
      DisplayedCounts(es[1..]);
      assert es == [es[0]] + es[1..];
    }
  }

  /** After a "load more", the list shows the old displayed entries followed
      by the new page's displayed entries. */
  lemma DisplayedAfterMerge(prev: Dashboard, d: Dashboard)
    ensures Displayed(Paging.MergePage(Some(prev), d).repos) == Displayed(prev.repos) + Displayed(d.repos)
  {
    DisplayedAppend(prev.repos, d.repos);
  }

  /** The text a sector's keywords are matched against: name, description
      and topics joined by spaces, lower-cased. Each of them can be found in
      it in lower case. */
  function SearchText(r: Repo): (t: string)
    ensures |t| == |r.name| + |r.description| + |Text.Join(r.topics, " ")| + 2
    ensures Text.Contains(t, Text.ToLower(r.name)) && Text.Contains(t, Text.ToLower(r.description))
    ensures forall i :: 0 <= i < |r.topics| ==> Text.Contains(t, Text.ToLower(r.topics[i]))
  {
    var topics := Text.Join(r.topics, " ");
    LowerContainsLayout(r.name, r.description, topics, r.topics);
    Text.ToLower(r.name + " " + r.description + " " + topics)
  }

  /** The searched text holds the lower-cased name, a space, the lower-cased
      description, a space and the lower-cased topics joined by spaces, in
      that order. */
  lemma SearchTextLayout(r: Repo)
    ensures var t := SearchText(r);
      && t[..|r.name|] == Text.ToLower(r.name) && t[|r.name|] == ' '
      && t[|r.name| + 1..|r.name| + 1 + |r.description|] == Text.ToLower(r.description)
      && t[|r.name| + 1 + |r.description|] == ' '
      && t[|r.name| + 2 + |r.description|..] == Text.ToLower(Text.Join(r.topics, " "))
  {
    LowerLayout(r.name, r.description, Text.Join(r.topics, " "));
  }

  /** Where each lower-cased part sits in `(a + " " + b + " " + c)`
      lower-cased. */
  lemma LowerLayout(a: string, b: string, c: string)
    ensures var t := Text.ToLower(a + " " + b + " " + c);
      && |t| == |a| + |b| + |c| + 2
      && t[..|a|] == Text.ToLower(a) && t[|a|] == ' '
      && t[|a| + 1..|a| + 1 + |b|] == Text.ToLower(b) && t[|a| + 1 + |b|] == ' '
      && t[|a| + 2 + |b|..] == Text.ToLower(c)
  {
    Text.LowerAppend(a + " " + b + " ", c);
    Text.LowerAppend(a + " " + b, " ");
    Text.LowerAppend(a + " ", b);
    Text.LowerAppend(a, " ");
  }

  /** Each part of `a + " " + b + " " + c`, and each needle found in `c`, is
      found in it lower-cased. */
  lemma LowerContainsLayout(a: string, b: string, c: string, cs: seq<string>)
    requires forall i :: 0 <= i < |cs| ==> Text.Contains(c, cs[i])
    ensures var t := Text.ToLower(a + " " + b + " " + c);
      && Text.Contains(t, Text.ToLower(a)) && Text.Contains(t, Text.ToLower(b))
      && forall i :: 0 <= i < |cs| ==> Text.Contains(t, Text.ToLower(cs[i]))
  {
    var raw := a + " " + b + " " + c;
    Text.ContainsParts(a + " ", b, " " + c);
    assert raw == (a + " ") + b + (" " + c);
    assert Text.Contains(raw, a) by {
      Text.ContainsParts(a, " ", b + " " + c);
      assert raw == a + " " + (b + " " + c);
    }
    Text.ContainsAllInRight(a + " " + b + " ", c, cs);
    Text.LowerContains(raw, a);
    Text.LowerContains(raw, b);
    LowerContainsAll(raw, cs);
  }

  lemma LowerContainsAll(s: string, needles: seq<string>)
    requires forall i :: 0 <= i < |needles| ==> Text.Contains(s, needles[i])
    ensures forall i :: 0 <= i < |needles| ==> Text.Contains(Text.ToLower(s), Text.ToLower(needles[i]))
  {
    forall i | 0 <= i < |needles| ensures Text.Contains(Text.ToLower(s), Text.ToLower(needles[i])) {
      Text.LowerContains(s, needles[i]);
    }
  }

  /** `keywords.some(kw => text.includes(kw.toLowerCase()))`. */
  predicate MatchesAny(r: Repo, keywords: seq<string>)
    decreases |keywords|
  {
    keywords != [] && (Text.Contains(SearchText(r), Text.ToLower(keywords[0])) || MatchesAny(r, keywords[1..]))
  }

  lemma {:induction false} MatchesAnyIff(r: Repo, keywords: seq<string>)
    ensures MatchesAny(r, keywords) <==>
            exists i :: 0 <= i < |keywords| && Text.Contains(SearchText(r), Text.ToLower(keywords[i]))
    decreases |keywords|
  {
    if keywords != [] {
      MatchesAnyIff(r, keywords[1..]);
      assert forall i :: 1 <= i < |keywords| ==> keywords[i] == keywords[1..][i - 1];
    }
  }

  /** An empty keyword is found in every text, so it matches every
      repository. */
  lemma EmptyKeywordMatches(r: Repo, keywords: seq<string>)
    requires "" in keywords
    ensures MatchesAny(r, keywords)
  {
    var i :| 0 <= i < |keywords| && keywords[i] == "";
    Text.ContainsIff(SearchText(r), "");
    assert Text.OccursAt(SearchText(r), "", 0);
    MatchesAnyIff(r, keywords);
  }

  /** A sector whose keyword list names one of a repository's topics, in
      any letter case, counts that repository. */
  lemma TopicKeywordMatches(r: Repo, keywords: seq<string>, i: nat, j: nat)
    requires i < |r.topics| && j < |keywords|
    requires Text.ToLower(keywords[j]) == Text.ToLower(r.topics[i])
    ensures MatchesAny(r, keywords)
  {
    MatchesAnyIff(r, keywords);
    assert Text.Contains(SearchText(r), Text.ToLower(keywords[j]));
  }

  predicate MatchesSector(e: Entry, keywords: seq<string>) {
    e.Present? && MatchesAny(e.repo, keywords)
  }

  /** The number of entries the filter of a sector count keeps; it equals the
      number of entries exactly when every entry is a matching repository. */
  function CountMatching(es: seq<Entry>, keywords: seq<string>): (n: nat)
    ensures n <= |es|
    ensures n == |es| <==> forall i :: 0 <= i < |es| ==> MatchesSector(es[i], keywords)
    decreases |es|
  {
    if es == [] then 0
    else
      assert forall i :: 1 <= i < |es| ==> es[i] == es[1..][i - 1];
      (if MatchesSector(es[0], keywords) then 1 else 0) + CountMatching(es[1..], keywords)
  }

  /** The positions of the entries a sector count keeps. */
  ghost function MatchIndices(es: seq<Entry>, keywords: seq<string>): set<int> {
    set i | 0 <= i < |es| && MatchesSector(es[i], keywords)
  }

  /** The count is the number of positions holding a matching repository. */
  lemma {:induction false} CountMatchingIndices(es: seq<Entry>, keywords: seq<string>)
    ensures CountMatching(es, keywords) == |MatchIndices(es, keywords)|
    decreases |es|
  {
    if es != [] {
      var p := es[..|es| - 1];
      CountMatchingIndices(p, keywords);
      CountMatchingSnoc(es, keywords);
      MatchIndicesSnoc(es, keywords);
      assert |es| - 1 !in MatchIndices(p, keywords);
    }
  }

  lemma {:induction false} CountMatchingSnoc(es: seq<Entry>, keywords: seq<string>)
    requires es != []
    ensures CountMatching(es, keywords) ==
            CountMatching(es[..|es| - 1], keywords) + (if MatchesSector(es[|es| - 1], keywords) then 1 else 0)
    decreases |es|
  {
    if |es| > 1 {
      CountMatchingSnoc(es[1..], keywords);
      assert es[..|es| - 1][0] == es[0];
      assert es[..|es| - 1][1..] == es[1..][..|es| - 2];
    }
  }

  /** Adding an entry at the end adds its position exactly when it matches. */
  lemma MatchIndicesSnoc(es: seq<Entry>, keywords: seq<string>)
    requires es != []
    ensures MatchIndices(es, keywords) ==
            MatchIndices(es[..|es| - 1], keywords) + (if MatchesSector(es[|es| - 1], keywords) then {|es| - 1} else {})
  {
    var p := es[..|es| - 1];
    forall i | 0 <= i < |p|
      ensures i in MatchIndices(es, keywords) <==> i in MatchIndices(p, keywords)
    {
      assert es[i] == p[i];
    }
  }

  lemma {:induction false} CountMatchingAppend(a: seq<Entry>, b: seq<Entry>, keywords: seq<string>)
    ensures CountMatching(a + b, keywords) == CountMatching(a, keywords) + CountMatching(b, keywords)
    decreases |a|
  {
    if a == [] {
      assert a + b == b;
    } else {
      assert (a + b)[0] == a[0] && (a + b)[1..] == a[1..] + b;
      CountMatchingAppend(a[1..], b, keywords);
    }
  }

  /** `getSectorCount(sectorId, keywords)`: the total for "all", otherwise the
      number of repositories whose text contains one of the keywords. */
  function SectorCount(data: Option<Dashboard>, sectorId: string, keywords: seq<string>): (n: nat)
    ensures data.None? ==> n == 0
    ensures data.Some? && sectorId == "all" ==> n == |data.value.repos|
    ensures data.Some? && sectorId != "all" ==> n <= |data.value.repos|
    ensures data.Some? && sectorId != "all" ==> n == |MatchIndices(data.value.repos, keywords)|
    ensures data.Some? && sectorId != "all" && keywords == [] ==> n == 0
    ensures data.Some? && sectorId != "all" ==>
      (n == |data.value.repos| <==> forall i :: 0 <= i < |data.value.repos| ==> MatchesSector(data.value.repos[i], keywords))
  {
    if data.None? then 0
    else if sectorId == "all" then |data.value.repos|
    else
      assert keywords == [] ==> CountMatching(data.value.repos, keywords) == 0 by {
        if keywords == [] { NoKeywordsNoMatch(data.value.repos, keywords); }
      }
      CountMatchingIndices(data.value.repos, keywords);
      CountMatching(data.value.repos, keywords)
  }

  lemma {:induction false} NoKeywordsNoMatch(es: seq<Entry>, keywords: seq<string>)
    requires keywords == []
    ensures CountMatching(es, keywords) == 0
    decreases |es|
  {
    if es != [] { NoKeywordsNoMatch(es[1..], keywords); }
  }

  /** The tags every non-null repository contributes: its topics, then its
      market tags, in feed order. */
  function TagSource(es: seq<Entry>): seq<string>
    decreases |es|
  {
    if es == [] then []
    else (if es[0].Present? then es[0].repo.topics + es[0].repo.marketTags else []) + TagSource(es[1..])
  }

  ghost predicate HasTag(es: seq<Entry>, t: string) {
    exists i :: 0 <= i < |es| && es[i].Present? && (t in es[i].repo.topics || t in es[i].repo.marketTags)
  }

  lemma {:induction false} TagSourceIff(es: seq<Entry>, t: string)
    ensures t in TagSource(es) <==> HasTag(es, t)
    decreases |es|
  {
    if es != [] {
      TagSourceIff(es[1..], t);
      if HasTag(es[1..], t) {
        var i :| 0 <= i < |es[1..]| && es[1..][i].Present? && (t in es[1..][i].repo.topics || t in es[1..][i].repo.marketTags);
        assert es[i + 1] == es[1..][i];
      }
      if HasTag(es, t) && !(es[0].Present? && (t in es[0].repo.topics || t in es[0].repo.marketTags)) {
        var i :| 0 <= i < |es| && es[i].Present? && (t in es[i].repo.topics || t in es[i].repo.marketTags);
        assert i != 0;
        assert es[1..][i - 1] == es[i];
      }
    }
  }

  predicate NoDup(s: seq<string>) {
    forall i, j :: 0 <= i < j < |s| ==> s[i] != s[j]
  }

  /** `Array.from(new Set(s))`: each value once, at its first occurrence. */
  function Distinct(s: seq<string>): (d: seq<string>)
    ensures NoDup(d)
    ensures forall x :: x in d <==> x in s
    decreases |s|
  {
    if s == [] then []
    else
      var p := s[..|s| - 1];
      var d := Distinct(p);
      assert forall x :: x in s <==> x in p || x == s[|s| - 1];
      if s[|s| - 1] in d then d else d + [s[|s| - 1]]
  }

  /** Values met earlier come first: the distinct values of any prefix are a
      prefix of the distinct values of the whole. */
  lemma {:induction false} DistinctPrefix(s: seq<string>, k: nat)
    requires k <= |s|
    ensures |Distinct(s[..k])| <= |Distinct(s)|
    ensures Distinct(s[..k]) == Distinct(s)[..|Distinct(s[..k])|]
    decreases |s| - k
  {
    if k < |s| {
      DistinctPrefix(s, k + 1);
      assert s[..k + 1][..k] == s[..k];
    } else {
      assert s[..k] == s;
    }
  }

  /** The most chips the tag panel shows. */
  const MaxChips: nat := 15

  /** The discovery-tag chips: the distinct tags in first-occurrence order,
      cut after 15. */
  function TagChips(es: seq<Entry>): (r: seq<string>)
    ensures |r| <= MaxChips
    ensures NoDup(r)
    ensures forall t :: t in r ==> HasTag(es, t)
    ensures |r| == if |Distinct(TagSource(es))| < MaxChips then |Distinct(TagSource(es))| else MaxChips
    ensures r == Distinct(TagSource(es))[..|r|]
    ensures |Distinct(TagSource(es))| <= MaxChips ==> forall t :: HasTag(es, t) ==> t in r
  {
    var d := Distinct(TagSource(es));
    var r := if |d| <= MaxChips then d else d[..MaxChips];
    forall t ensures t in r ==> HasTag(es, t) {
      TagSourceIff(es, t);
    }
    forall t ensures |d| <= MaxChips && HasTag(es, t) ==> t in r {
      TagSourceIff(es, t);
    }
    r
  }

  /** Clicking a tag chip: the selected tag is cleared, any other becomes
      the selection. */
  function ToggleTag(selected: Option<string>, t: string): (r: Option<string>)
    ensures r.None? <==> selected == Some(t)
    ensures r.Some? ==> r.value == t
  {
    if selected == Some(t) then None else Some(t)
  }

  /** Clicking the same chip twice restores the selection, unless another tag
      was selected before. */
  lemma ToggleTwice(selected: Option<string>, t: string)
    ensures selected.None? || selected == Some(t) <==> ToggleTag(ToggleTag(selected, t), t) == selected
  {
  }
}
